=== FILE: README.md ===
# Bichinho-SOS in Dafny

Bichinho-SOS is an app for reporting animal mistreatment. Citizens file reports, which may be anonymous. Other citizens like them and discuss them in threaded comments. An agency sees every report with its status. This project models two parts of it:

- **The server's request rules.** Each route of the Express server is a pure transition of an abstract store (`module Server`). The store holds users, reports, likes and comments. The routes covered are:
  - registration and the nickname check;
  - login;
  - report creation, lookup and listing;
  - like toggle, check and count;
  - comment add, list, edit and delete.

  Properties that relate routes to each other, or a route to the store invariant `Store.Valid`, are in `module ServerProps`.
- **The screens' own logic**, each a pure function or step relation:
  - `HomeFeed`: the citizen's list.
  - `AgencyFeed`: the agency's list.
  - `Thread`: the report detail, with its comment thread, like button and comment box.
  - `ReportForm`: the report form.
  - `Profile`: the profile.
  - `RegisterForm`: sign-up.
  - `ResetPassword`: the two-step password reset.

  A screen gets its data from a report or authentication service whose code is not part of this model. Every reply from such a service is a parameter of the screen's function.

Shared pieces:

- `Common` models JavaScript truthiness of optional strings (`Truthy`, `OrNull`, `OrElse`) and positive serial ids.
- `Text` models `trim`, ASCII `toLowerCase`, `includes`, `substring(0, n)` and the last segment of `split(sep)`.
- `Seqs` is an order-preserving `Filter` with its membership and subsequence laws. It also holds the descending insertion sort that stands for `ORDER BY created_at DESC`.

Some things the server reads outside the request are parameters of the model:

- The clock is the `now` parameter.
- Fresh ids come from counters in the store.
- The `userId` query string of the list route is abstracted as `NoUserId | NumericId(n) | NotANumber`.

## Model

| member | source | states |
|---|---|---|
| Server.Register | bichinhosos/src/server/index.js:28-73 | A nickname equal to a stored one ignoring case is refused before the e-mail is looked at. A known e-mail is refused next. Both refusals leave the store unchanged. Registration succeeds exactly when both are free, and then appends exactly one user whose missing picture is stored as null. |
| Server.Login | bichinhosos/src/server/index.js:75-96 | Login succeeds iff some stored user has exactly this e-mail and password. It returns such a user, with the fixed default avatar in place of a missing or empty picture. Otherwise the answer is 401. |
| Server.CreateReport | bichinhosos/src/server/index.js:99-128 | A missing or empty title or description gives 400 and changes nothing. Otherwise one report is appended with the next id and the time `now`. Its title, description and anonymity are stored as sent, and its author is null whenever it is anonymous. The location and the photo are stored as sent, or as null when absent or empty. |
| Server.GetReport | bichinhosos/src/server/index.js:132-149 | A report is returned iff one with that id is stored; otherwise the answer is 404. |
| Server.ListReports | bichinhosos/src/server/index.js:152-185 | The list holds exactly the stored reports the query selects, each as often as stored, newest first. Each row carries the name of its author, if the report has one. |
| Server.ToggleLike | bichinhosos/src/server/index.js:190-220 | The answer is `liked = true` iff the pair was absent. Afterwards the pair is present iff the answer is true. No other pair and no other table changes. |
| Server.LikeChecked | bichinhosos/src/server/index.js:276-291 | The check answers liked iff a like row with this report and this user is stored. |
| Server.LikeCount | bichinhosos/src/server/index.js:294-308 | The count equals the number of distinct users who liked the report. It is 0 iff the report has no like row. |
| Server.CheckNickname | bichinhosos/src/server/index.js:313-335 | A missing nickname, or one shorter than 3, is answered unavailable. Otherwise the nickname is available iff no stored nickname equals it ignoring case. |
| Server.StoredParent | bichinhosos/src/server/index.js:231 | `parentId \|\| null`: the parent is stored as sent unless it is missing or 0. |
| Server.AddComment | bichinhosos/src/server/index.js:223-252 | The comment is always appended with the next id, the content as sent and the parent as sent. The answer succeeds iff a stored user has the comment's author id. It then joins the comment with that user's name and picture. Otherwise it is a server error. |
| Server.ListComments | bichinhosos/src/server/index.js:255-273 | The list holds exactly the report's comments that have a stored author, newest first, each as often as stored. |
| Server.SetContent | bichinhosos/src/server/index.js:353-356 | Only the content of the rows with that id changes. Every row keeps its position. |
| Server.EditComment | bichinhosos/src/server/index.js:338-363 | Without ownership of the comment id the answer is 403 and nothing changes. With it, only that comment's content changes and the edited row is returned. |
| Server.DeleteComment | bichinhosos/src/server/index.js:366-387 | Without ownership the answer is 403 and nothing changes. With it, exactly the rows with that id are removed. Every other row stays as often as it was stored, in its order. |
| ServerProps.RegisterKeepsValid | bichinhosos/src/server/index.js:33-65 | Registration keeps ids, e-mails and nicknames (ignoring case) unique. |
| ServerProps.CreateReportKeepsValid | bichinhosos/src/server/index.js:104-121 | Report creation keeps ids unique and anonymous reports without an author. |
| ServerProps.AddCommentKeepsValid | bichinhosos/src/server/index.js:228-231 | Adding a comment keeps comment ids unique. |
| ServerProps.EditCommentKeepsValid | bichinhosos/src/server/index.js:344-356 | Editing keeps the store invariant. |
| ServerProps.DeleteCommentKeepsValid | bichinhosos/src/server/index.js:372-381 | Deleting keeps the store invariant. |
| ServerProps.LoginFindsTheUser | bichinhosos/src/server/index.js:79-89 | In a valid store, login with a user's own credentials returns exactly that user, with the default avatar filled in. |
| ServerProps.RegisterThenLogin | bichinhosos/src/server/index.js:28-96 | After a successful registration, login with the same e-mail and password returns the new account. |
| ServerProps.NicknameCheckPredictsRegister | bichinhosos/src/server/index.js:318-330 | For a nickname of length 3 or more, the check answers available iff registration would not refuse that nickname. |
| ServerProps.ListByUserIgnoresFilter | bichinhosos/src/server/index.js:166-169 | With a numeric user id the list is exactly that user's reports, whatever the filter. |
| ServerProps.ListByFilter | bichinhosos/src/server/index.js:170-176 | Without a numeric user id, `anonymous` lists exactly the anonymous reports and `identified` exactly the others. Any other filter lists every report. |
| ServerProps.AnonymousReportsListedWithoutAuthor | bichinhosos/src/server/index.js:156-160 | In a valid store, no listed anonymous report carries an author id or name. |
| ServerProps.ToggleLikeTwice | bichinhosos/src/server/index.js:196-215 | Toggling twice restores the store and gives opposite answers. |
| ServerProps.ToggleThenCheck | bichinhosos/src/server/index.js:276-291 | After a toggle, the like check answers what the toggle answered. |
| ServerProps.ToggleLikeCount | bichinhosos/src/server/index.js:294-308 | A toggle moves the report's like count by one in the direction of its answer. |
| ServerProps.ToggleLikeLeavesOthers | bichinhosos/src/server/index.js:294-308 | A toggle leaves the like count of every other report unchanged. |
| ServerProps.EditChangesOnlyContent | bichinhosos/src/server/index.js:353-356 | An owner's edit changes the content of that id's rows and nothing else in the store. |
| ServerProps.DeleteKeepsReplies | bichinhosos/src/server/index.js:381 | Deletion does not cascade: the replies to a deleted comment stay stored. |
| ServerProps.CommentRoutesIgnorePath | bichinhosos/src/server/index.js:340-346 | The report id in the path has no influence on editing or deleting. |
| HomeFeed.LoadParams | bichinhosos/src/screens/HomeScreen.js:35 | The "my" tab asks for the user id only. Any other tab asks for the filter only. |
| HomeFeed.FilteredReports | bichinhosos/src/screens/HomeScreen.js:52-55 | A report is kept iff its lower-cased title or description contains the lower-cased query. Each kept report occurs as often as it was loaded, and the kept reports keep their order. |
| HomeFeed.EmptyQueryKeepsAll | bichinhosos/src/screens/HomeScreen.js:52-55 | An empty query keeps every report, in order. |
| HomeFeed.SearchIgnoresQueryCase | bichinhosos/src/screens/HomeScreen.js:52-55 | Lower-casing the query does not change the result. |
| HomeFeed.Badge | bichinhosos/src/screens/HomeScreen.js:79-81 | The badge reads 'Anônima' iff the report is anonymous, and 'Identificada' otherwise. |
| HomeFeed.AuthorLine | bichinhosos/src/screens/HomeScreen.js:82-83 | The author line is shown iff the report is not anonymous, has an author name and the tab is 'all'. |
| Items.Preview | bichinhosos/src/screens/AgencyHomeScreen.js:65 | The preview is the first 100 characters of the description followed by '...'. A short description is shown whole. |
| AgencyFeed.StatusBadge | bichinhosos/src/screens/AgencyHomeScreen.js:16-21 | Exactly the four known statuses get their own label and colour. Any other status gets 'Desconhecido' in '#7f8c8d'. |
| AgencyFeed.BadgeTextIdentifiesStatus | bichinhosos/src/screens/AgencyHomeScreen.js:60-61 | A known status can be read back from its label. An unknown one reads back as none. |
| AgencyFeed.AuthorText | bichinhosos/src/screens/AgencyHomeScreen.js:69 | The author text is 'Denúncia Anônima' iff the report is anonymous. Otherwise it is 'Por: ' followed by the name, or 'Usuário' without one. |
| Thread.Roots | bichinhosos/src/screens/ReportDetailScreen.js:225 | The top-level list is exactly the comments without a parent, each as often as in the list, in list order. |
| Thread.Replies | bichinhosos/src/screens/ReportDetailScreen.js:116 | Under a comment are exactly the comments whose parent is its id, each as often as in the list, in list order. |
| Thread.RenderMembers | bichinhosos/src/screens/ReportDetailScreen.js:87-122 | The recursive render of a list shows exactly the union of the subtrees of its items. |
| Thread.ShownIffReachesRoot | bichinhosos/src/screens/ReportDetailScreen.js:116-120 | A comment is shown iff it is in the list and its parent chain within the list reaches a top-level comment. |
| Thread.OrphanNeverShown | bichinhosos/src/screens/ReportDetailScreen.js:116-120 | A reply whose parent is not in the list is never shown. |
| Thread.ReplyToShownIsShown | bichinhosos/src/screens/ReportDetailScreen.js:77 | A new reply to a shown comment, put in front of the list, is shown one level deeper. Nothing that was shown disappears. |
| Thread.HeaderCountsReplies | bichinhosos/src/screens/ReportDetailScreen.js:187 | The title's count is the number of top-level comments plus the number of replies. |
| Thread.HandleLike | bichinhosos/src/screens/ReportDetailScreen.js:55-63 | After an answer, the heart equals the answer and the count moves by exactly one in its direction. A failed call changes nothing. |
| Thread.LikeBookkeepingTracksServer | bichinhosos/src/screens/ReportDetailScreen.js:38-59 | Starting from the loaded check and count, the local update after a toggle equals a fresh check and count from the server. |
| Thread.HandleAddComment | bichinhosos/src/screens/ReportDetailScreen.js:65-85 | Whitespace-only text makes no call. Otherwise the text is sent untrimmed, with the answered comment's id as parent. On success the new comment is put in front, the box is cleared and the reply target is reset. |
| Thread.ReplyStoredUnderItsParent | bichinhosos/src/screens/ReportDetailScreen.js:70-77 | The server stores a reply verbatim under the comment it answers. On success that row heads the local list, and the header count grows by one. |
| ReportForm.Initial | bichinhosos/src/screens/ReportScreen.js:29-38 | The form opens with the edited report's fields, with '' or null for missing ones, or empty outside edit mode. |
| ReportForm.UploadFile | bichinhosos/src/screens/ReportScreen.js:72-79 | The upload is named `upload.<ext>` and typed `<asset type>/<ext>`. `<ext>` is the URI's last `.`-separated segment. |
| ReportForm.UploadKeepsExtension | bichinhosos/src/screens/ReportScreen.js:72-73 | For a URI `<stem>.<ext>`, the extension is `<ext>`, however many dots the stem holds. |
| ReportForm.OpensPicker | bichinhosos/src/screens/ReportScreen.js:43-47 | Picking media opens the picker only outside edit mode. |
| ReportForm.Apply | bichinhosos/src/screens/ReportScreen.js:43-94 | No event changes the edit mode. Outside edit mode the anonymity switch sets the flag, and it is the only way to change it; while editing the switch is disabled (lines 218-219). Picking media starts an upload exactly when the picker opens, that is outside edit mode, and nothing else starts one. A success answer to a running upload stores the answer's URL and type, and nothing else changes the media. An upload answer ends the upload. A text event sets its own field, and each text field changes only by its own event. The model ignores a success answer that arrives while no upload is running; the screen only gets one after starting an upload. |
| ReportForm.FilingFillsForm | bichinhosos/src/screens/ReportScreen.js:43-94 | From the freshly opened form, typing the title and the description, picking a picture and receiving the upload's answer leaves a new-report form with those texts and the uploaded URL and type, and no upload running. |
| ReportForm.EditModeLocksMediaAndAnonymity | bichinhosos/src/screens/ReportScreen.js:219 | In edit mode, no sequence of events changes the anonymity flag or the media, or starts an upload. |
| ReportForm.LocationOrNull | bichinhosos/src/screens/ReportScreen.js:112 | The location is sent trimmed, or as null when it is whitespace only. |
| ReportForm.Submit | bichinhosos/src/screens/ReportScreen.js:96-139 | The form is refused for a missing text when the trimmed title or description is empty (checked first), and otherwise for the upload while one runs. In edit mode it sends only the trimmed texts and the location. Otherwise it sends a null author exactly when anonymous, along with the media. |
| ReportForm.CreateCallAccepted | bichinhosos/src/screens/ReportScreen.js:119-128 | A new-report form with a non-blank title and description and no upload running makes a create call, and the server accepts it. The stored report has the trimmed texts, no author exactly when anonymous, and no media reference. |
| ReportForm.MediaUrlIsDropped | bichinhosos/src/server/index.js:101 | Open the form for a new report, type a non-blank title and description, pick a picture and receive the upload's URL. The form then holds that URL and the create call carries it, yet the server stores the report without a photo. |
| ReportForm.CreateCallKeepsMedia | bichinhosos/src/screens/ReportScreen.js:125 | For the same forms, with the media URL sent in the field the server reads, the stored report keeps the media, and everything else is stored as before. |
| Profile.AfterDelete | bichinhosos/src/screens/ProfileScreen.js:74-81 | After a successful delete, the list holds exactly the other reports, each as often as before, in order. The report counter drops by one and the other counters are unchanged. |
| Profile.DeleteKeepsCountInStep | bichinhosos/src/screens/ProfileScreen.js:77-81 | If the counter matched the list and the report was listed once, it still matches after the delete. |
| Profile.Merge | bichinhosos/src/screens/ProfileScreen.js:94 | The merged record has the fields of both, with the updated values winning. |
| Profile.MergeIdempotent | bichinhosos/src/screens/ProfileScreen.js:94 | Merging the same update twice equals merging it once, and an empty update changes nothing. |
| Profile.BioOf | bichinhosos/src/screens/ProfileScreen.js:48 | The biography is the stored one when it is a non-empty text, and '' otherwise. |
| Profile.Loaded | bichinhosos/src/screens/ProfileScreen.js:47-51 | Loading sets the record, its biography or '', the reports and the counters. |
| Profile.AfterUpdateBio | bichinhosos/src/screens/ProfileScreen.js:91-100 | On success the reply is merged over the current record and the editor closes. A failure changes nothing. |
| Profile.CancelBioEdit | bichinhosos/src/screens/ProfileScreen.js:252 | Cancelling closes the editor and restores the stored biography, or ''. |
| Profile.CancelAfterUpdate | bichinhosos/src/screens/ProfileScreen.js:94 | A cancel after an update that echoes the biography keeps it. A cancel after an update without one restores the earlier biography. |
| Profile.ProfilePicType | bichinhosos/src/screens/ProfileScreen.js:143 | The picture's type is `image/` followed by a dot-free suffix of the URI. That suffix is the whole URI or follows a dot, so it is the URI's last `.`-separated segment. |
| Profile.ProfilePicTypeOfNamedUri | bichinhosos/src/screens/ProfileScreen.js:143 | A picture at `<stem>.<ext>` is typed `image/<ext>`. |
| RegisterForm.HandleRegister | bichinhosos/src/screens/RegisterScreen.js:56-95 | An empty field, or a nickname shorter than 3, makes no call. Otherwise the nickname check comes first. Registration follows, with exactly the form's fields, iff the nickname was reported available. So the form makes no call, the check alone, or the check and then the registration. |
| RegisterForm.FormAgreesWithServer | bichinhosos/src/screens/RegisterScreen.js:62-76 | Every nickname the form checks passes the server's length check. A nickname the server holds is never registered, and a registration the form sends is never refused by the server for its nickname. |
| ResetPassword.Apply | bichinhosos/src/screens/ResetPasswordScreen.js:14-53 | A code whose length is not 6 makes no call. The step moves from 1 to 2 exactly on an accepted verification, and never back. A reset is sent only in step 2, with non-blank, equal passwords, carrying the screen's e-mail and the current code. |
| ResetPassword.ApplyKeepsInvariant | bichinhosos/src/screens/ResetPasswordScreen.js:7-42 | Each event keeps the invariant: step 2 implies that the current code was accepted, and every reset so far follows an accepted verification of its code. |
| ResetPassword.ResetFollowsAcceptedCode | bichinhosos/src/screens/ResetPasswordScreen.js:42 | From the start, every reset request carries the screen's e-mail and a code the service accepted earlier in the session. |
| Text.Trim | bichinhosos/src/screens/ReportScreen.js:97 | The result is a slice of the text, and everything before and after it is whitespace. It is empty iff the text is whitespace only. Otherwise it starts and ends with a non-space, so exactly the leading and trailing whitespace is removed. |
| Text.TrimIdempotent | bichinhosos/src/screens/ReportScreen.js:110-112 | Trimming twice equals trimming once. |
| Text.ContainsIffOccurs | bichinhosos/src/screens/HomeScreen.js:53-54 | `includes` holds iff the needle occurs at some position of the text. |
| Text.LastSegment | bichinhosos/src/screens/ReportScreen.js:72-73 | The last `.`-separated segment is a dot-free suffix of the text. It is the whole text, or is preceded by a dot. |

## Left out

- Express, pg, cors and body-parser plumbing and the SQL text. Tables are sequences in insertion order, and likes are a set of (report, user) pairs.
- Server.Register: ILIKE is modelled as equality after ASCII lower-casing. In the real query, `%` and `_` inside a nickname act as wildcards and `\` as the escape character (index.js:34 and 323). So some nicknames are refused that the model accepts, and a nickname holding `\` may be compared differently.
- Server.CheckNickname: the same wildcard and escape-character caveat as registration.
- The check-then-insert race in like toggling, and all concurrency: the model is sequential.
- Database constraints (foreign keys, NOT NULL, the schema itself) are not part of this model. Server.AddComment therefore models the code path as written: the row is inserted first, and a missing author then gives a server error.
- Server.ListReports and Server.ListComments: rows with equal `created_at` come out in one fixed order. SQL leaves that order unspecified.
- The `userId` query string is abstracted. JavaScript's `isNaN`/`parseInt` on strings such as `"12abc"` are not modelled.
- Text.ToLower: ASCII only. Unicode case mapping is not modelled. Lengths are counted in code points, not UTF-16 units.
- Thread.ShownIffReachesRoot: the render is bounded by a depth budget. The equivalence holds for every budget, but the model does not prove that a budget of the list's length suffices for any chain.
- Thread.Render: the Alerts, avatar fallback and relative dates are not modelled.
- Items.Preview: applies to all three list screens (HomeScreen.js:68, AgencyHomeScreen.js:65 and ProfileScreen.js:215).
- The report and authentication services that sit between the screens and the server are not part of this model. The model assumes they forward the request fields to the routes unchanged and hand back the server's answer. ReportForm.CreateCallAccepted, ReportForm.MediaUrlIsDropped, ReportForm.CreateCallKeepsMedia, Thread.ReplyStoredUnderItsParent, Thread.LikeBookkeepingTracksServer and RegisterForm.FormAgreesWithServer rest on that assumption, and so does the way ReportForm.AsReportBody maps a create call to the server's request body.
- ReportForm.Submit: the update and create services, navigation after success and error Alerts are not modelled. The update route itself is not part of the server code.
- Profile.Merge: profile values are text or null; numeric fields are not represented.
- Profile: the picture upload call, stats and achievements queries, refresh and the 200-character limit of the bio input are not modelled.
- ResetPassword.Apply: a failed reset request is indistinguishable from a successful one in the state. The navigation to login is not modelled.
- The e-mail service, the axios client, the SQLite setup, App.js and the bundler configuration: I/O and configuration only.
- LoginScreen.js and ForgotPasswordScreen.js: each is a single emptiness guard before a network call.
- Rendering, styles, the image picker and permissions, Alerts, date formatting, and loading and refreshing flags.
- Behaviour the code does not have is not modelled: status changes, server-side report update and delete, an edit window, delete cascades, popular and statistics queries, agency notes, and re-parenting of replies.

## Findings

| source | as written | input that shows it | evidently intended | confidence | as-written member | corrected member |
|---|---|---|---|---|---|---|
| bichinhosos/src/server/index.js:101 | The server takes the picture from `req.body.photo`. The report form sends the uploaded media as `media_url` (ReportScreen.js:125), so the server stores no photo, provided the report service forwards the form's fields unchanged. | Type title "t" and description "d", pick a picture, and receive the upload URL "m". The create call carries "m", but the stored report's photo is null. | The uploaded media URL is stored as the report's photo. | medium (not executed; the report service is not part of this model) | ReportForm.MediaUrlIsDropped | ReportForm.CreateCallKeepsMedia |

=== FILE: agency.dfy ===
/** The agency's report panel: the status badge looked up in a fixed table with a
    fallback, and the author text of each entry. */
module AgencyFeed {
  import opened Common
  import opened Items

  datatype Badge = Badge(text: string, color: string)

  /** The four statuses the badge table knows. */
  predicate KnownStatus(status: Option<string>) {
    status.Some? && status.value in {"pending", "seen", "in_progress", "resolved"}
  }

  const Unknown := Badge("Desconhecido", "#7f8c8d")

  /** `statusMap[item.status]` with `'Desconhecido'` and grey when the lookup misses. */
  function StatusBadge(status: Option<string>): (b: Badge)
    ensures KnownStatus(status) <==> b != Unknown
    ensures !KnownStatus(status) ==> b == Unknown
    ensures status == Some("pending") ==> b == Badge("Pendente", "#f39c12")
    ensures status == Some("seen") ==> b == Badge("Visualizado", "#3498db")
    ensures status == Some("in_progress") ==> b == Badge("Em Andamento", "#9b59b6")
    ensures status == Some("resolved") ==> b == Badge("Resolvido", "#2ecc71")
  {
    match status
    case Some("pending") => Badge("Pendente", "#f39c12")
    case Some("seen") => Badge("Visualizado", "#3498db")
    case Some("in_progress") => Badge("Em Andamento", "#9b59b6")
    case Some("resolved") => Badge("Resolvido", "#2ecc71")
    case _ => Unknown
  }

  /** Reads a status back from its badge text; `None` for the fallback. */
  function StatusOfText(text: string): Option<string> {
    match text
    case "Pendente" => Some("pending")
    case "Visualizado" => Some("seen")
    case "Em Andamento" => Some("in_progress")
    case "Resolvido" => Some("resolved")
    case _ => None
  }

  /** The badge text identifies the status: distinct known statuses get distinct
      texts, and everything else gets the fallback. */
  lemma {:induction false} BadgeTextIdentifiesStatus(status: Option<string>)
    ensures KnownStatus(status) ==> StatusOfText(StatusBadge(status).text) == status
    ensures !KnownStatus(status) ==> StatusOfText(StatusBadge(status).text).None?
  {
  }

  const AnonymousAuthor := "Denúncia Anônima"

  /** The author text of an entry. */
  function AuthorText(r: ReportItem): (text: string)
    ensures text == AnonymousAuthor <==> r.isAnonymous
    ensures !r.isAnonymous ==> text == "Por: " + OrElse(r.userName, "Usuário")
  {
    if r.isAnonymous then AnonymousAuthor
    else
      var text := "Por: " + OrElse(r.userName, "Usuário");
      assert text[0] != AnonymousAuthor[0];
      text
  }
}

=== FILE: common.dfy ===
/** Shared vocabulary: optional values, row identifiers and JavaScript truthiness
    of the optional text fields that arrive in request bodies and screen state. */
module Common {

  datatype Option<+T> = None | Some(value: T)

  /** Identifiers handed out by the database's serial columns: never zero. */
  type Id = n: nat | 0 < n witness 1

  /** A text field is truthy in JavaScript when it is present and not the empty string. */
  predicate Truthy(field: Option<string>) {
    field.Some? && field.value != ""
  }

  /** `field || null`: an empty or missing text becomes null. */
  function OrNull(field: Option<string>): (r: Option<string>)
    ensures r.Some? <==> Truthy(field)
    ensures r.Some? ==> r == field
  {
    if Truthy(field) then field else None
  }

  /** `field || fallback` for text. */
  function OrElse(field: Option<string>, fallback: string): (r: string)
    ensures Truthy(field) ==> r == field.value
    ensures !Truthy(field) ==> r == fallback
  {
    if Truthy(field) then field.value else fallback
  }
}

=== FILE: home.dfy ===
/** The citizen's report list: which query it asks the report service for, the
    search box filter, and the badge and author line of each entry. */
module HomeFeed {
  import opened Common
  import opened Items
  import Text
  import Seqs

  /** The two tabs of the screen. */
  const AllTab := "all"
  const MyTab := "my"

  /** The parameters handed to `getReports`: the user id alone on the "my" tab, the
      filter alone otherwise. */
  datatype ReportQuery = ByUser(userId: Option<Id>) | ByFilter(filter: string)

  function LoadParams(activeTab: string, userId: Option<Id>, filter: string): (q: ReportQuery)
    ensures q.ByUser? <==> activeTab == MyTab
    ensures q.ByUser? ==> q.userId == userId
    ensures q.ByFilter? ==> q.filter == filter
  {
    if activeTab == MyTab then ByUser(userId) else ByFilter(filter)
  }

  /** The search predicate: the lower-cased title or description includes the
      lower-cased query. */
  predicate MatchesQuery(r: ReportItem, query: string) {
    || Text.Contains(Text.ToLower(r.title), Text.ToLower(query))
    || Text.Contains(Text.ToLower(r.description), Text.ToLower(query))
  }

  /** `filteredReports`: the loaded reports that match the query, in loaded order. */
  function FilteredReports(reports: seq<ReportItem>, query: string): (r: seq<ReportItem>)
    ensures forall x :: x in r <==> x in reports && MatchesQuery(x, query)
    ensures forall x :: multiset(r)[x] == if MatchesQuery(x, query) then multiset(reports)[x] else 0
    ensures Seqs.IsSubsequence(r, reports)
  {
    var matches := (x: ReportItem) => MatchesQuery(x, query);
    Seqs.FilterCount(reports, matches);
    Seqs.Filter(reports, matches)
  }

  /** An empty search box shows every loaded report. */
  lemma {:induction false} EmptyQueryKeepsAll(reports: seq<ReportItem>)
    ensures FilteredReports(reports, "") == reports
  {
    forall x | x in reports ensures MatchesQuery(x, "") {
      Text.ContainsEmpty(Text.ToLower(x.title));
    }
    Seqs.FilterAll(reports, (x: ReportItem) => MatchesQuery(x, ""));
  }

  /** The search ignores the letter case of the query. */
  lemma {:induction false} SearchIgnoresQueryCase(reports: seq<ReportItem>, query: string)
    ensures FilteredReports(reports, Text.ToLower(query)) == FilteredReports(reports, query)
  {
    Text.ToLowerIdempotent(query);
    Seqs.FilterSamePredicate(reports,
      (x: ReportItem) => MatchesQuery(x, Text.ToLower(query)),
      (x: ReportItem) => MatchesQuery(x, query));
  }

  /** The badge under each entry. */
  function Badge(r: ReportItem): (text: string)
    ensures text == "Anônima" <==> r.isAnonymous
    ensures !r.isAnonymous ==> text == "Identificada"
  {
    if r.isAnonymous then "Anônima" else "Identificada"
  }

  /** The author line under each entry, when one is shown. */
  function AuthorLine(r: ReportItem, activeTab: string): (line: Option<string>)
    ensures line.Some? <==> !r.isAnonymous && Truthy(r.userName) && activeTab == AllTab
    ensures line.Some? ==> line.value == "Por: " + r.userName.value
  {
    if !r.isAnonymous && Truthy(r.userName) && activeTab == AllTab then Some("Por: " + r.userName.value)
    else None
  }
}

=== FILE: items.dfy ===
/** What the list screens receive for each report, and the description preview
    they all render. */
module Items {
  import opened Common
  import Text

  /** A report as the report service hands it to a screen. */
  datatype ReportItem = ReportItem(
    id: Id,
    title: string,
    description: string,
    location: Option<string>,
    isAnonymous: bool,
    userName: Option<string>,
    status: Option<string>)

  const PreviewLength := 100

  /** `description.substring(0, 100)` followed by `...`. */
  function Preview(description: string): (r: string)
    ensures 3 <= |r| <= PreviewLength + 3
    ensures r[|r| - 3..] == "..."
    ensures r[..|r| - 3] <= description
    ensures |description| <= PreviewLength ==> r == description + "..."
    ensures |description| > PreviewLength ==> |r| == PreviewLength + 3
  {
    Text.Prefix(description, PreviewLength) + "..."
  }
}

=== FILE: profile.dfy ===
/** The profile screen's local state: the user's own reports and counters, the
    profile record it merges updates into, and the biography editor. */
module Profile {
  import opened Common
  import opened Items
  import Text
  import Seqs

  /** A value of the profile record. */
  datatype Field = Str(text: string) | Null

  /** The profile record, field name to value. */
  type Record = map<string, Field>

  /** The three counters under the header. */
  datatype Stats = Stats(reportsCount: int, likesReceived: int, commentsCount: int)

  datatype ProfileState = ProfileState(
    user: Option<Record>,
    bio: string,
    editingBio: bool,
    reports: seq<ReportItem>,
    stats: Stats)

  // ---------------------------------------------------------------- deleting a report

  /** The confirmed deletion of `reportId`, given whether the service call succeeded. */
  function AfterDelete(st: ProfileState, reportId: Id, succeeded: bool): (r: ProfileState)
    ensures !succeeded ==> r == st
    ensures succeeded ==>
              && (forall x :: x in r.reports <==> x in st.reports && x.id != reportId)
              && Seqs.IsSubsequence(r.reports, st.reports)
              && (forall x :: multiset(r.reports)[x] == if x.id != reportId then multiset(st.reports)[x] else 0)
              && r.stats == st.stats.(reportsCount := st.stats.reportsCount - 1)
              && r.user == st.user && r.bio == st.bio && r.editingBio == st.editingBio
  {
    if !succeeded then st
    else
      var others := (x: ReportItem) => x.id != reportId;
      Seqs.FilterCount(st.reports, others);
      st.(reports := Seqs.Filter(st.reports, others),
          stats := st.stats.(reportsCount := st.stats.reportsCount - 1))
  }

  /** The number of listed reports with id `reportId`. */
  function Listed(reports: seq<ReportItem>, reportId: Id): nat {
    |Seqs.Filter(reports, (x: ReportItem) => x.id == reportId)|
  }

  /** When the counter matches the list and the deleted report is listed once, the
      counter still matches the list after the deletion. */
  lemma {:induction false} DeleteKeepsCountInStep(st: ProfileState, reportId: Id)
    requires st.stats.reportsCount == |st.reports|
    requires Listed(st.reports, reportId) == 1
    ensures var r := AfterDelete(st, reportId, true);
            r.stats.reportsCount == |r.reports|
  {
    Seqs.FilterPartition(st.reports, (x: ReportItem) => x.id == reportId, (x: ReportItem) => x.id != reportId);
  }

  // ---------------------------------------------------------------- the profile record

  /** `{ ...prev, ...updated }`: every field of either, the updated value winning. */
  function Merge(prev: Record, updated: Record): (r: Record)
    ensures r.Keys == prev.Keys + updated.Keys
    ensures forall k :: k in updated ==> r[k] == updated[k]
    ensures forall k :: k in prev && k !in updated ==> r[k] == prev[k]
  {
    prev + updated
  }

  /** Merging the same update twice is merging it once, and merging an empty update
      changes nothing. */
  lemma {:induction false} MergeIdempotent(prev: Record, updated: Record)
    ensures Merge(Merge(prev, updated), updated) == Merge(prev, updated)
    ensures Merge(prev, map[]) == prev
  {
  }

  /** Spreading a missing user contributes no fields. */
  function OrEmpty(user: Option<Record>): Record {
    if user.Some? then user.value else map[]
  }

  /** `user?.bio || ''`. */
  function BioOf(user: Option<Record>): (bio: string)
    ensures bio != "" <==> user.Some? && "bio" in user.value && user.value["bio"].Str? && user.value["bio"].text != ""
    ensures bio != "" ==> bio == user.value["bio"].text
  {
    if user.Some? && "bio" in user.value && user.value["bio"].Str? then user.value["bio"].text else ""
  }

  /** The profile as loaded: the record, its biography or '', the reports and counters. */
  function Loaded(user: Record, reports: seq<ReportItem>, stats: Stats): (st: ProfileState)
    ensures st.user == Some(user) && st.bio == BioOf(Some(user)) && !st.editingBio
    ensures st.reports == reports && st.stats == stats
  {
    ProfileState(Some(user), BioOf(Some(user)), false, reports, stats)
  }

  /** `updateBio`, given the updated record (`None` when the call fails). */
  function AfterUpdateBio(st: ProfileState, reply: Option<Record>): (r: ProfileState)
    ensures reply.None? ==> r == st
    ensures reply.Some? ==>
              && r.user == Some(Merge(OrEmpty(st.user), reply.value))
              && !r.editingBio
              && r.bio == st.bio && r.reports == st.reports && r.stats == st.stats
  {
    match reply
    case None => st
    case Some(updated) => st.(user := Some(Merge(OrEmpty(st.user), updated)), editingBio := false)
  }

  /** The cancel button of the biography editor. */
  function CancelBioEdit(st: ProfileState): (r: ProfileState)
    ensures !r.editingBio && r.bio == BioOf(st.user)
    ensures r.user == st.user && r.reports == st.reports && r.stats == st.stats
  {
    st.(editingBio := false, bio := BioOf(st.user))
  }

  /** After a successful update whose reply echoes the biography sent, cancelling
      keeps that biography; after one whose reply leaves the biography out,
      cancelling brings back the biography stored before. */
  lemma {:induction false} CancelAfterUpdate(st: ProfileState, updated: Record)
    ensures "bio" in updated && updated["bio"] == Str(st.bio) ==>
              CancelBioEdit(AfterUpdateBio(st, Some(updated))).bio == st.bio
    ensures "bio" !in updated ==>
              CancelBioEdit(AfterUpdateBio(st, Some(updated))).bio == BioOf(st.user)
  {
  }

  // ---------------------------------------------------------------- profile picture

  /** The type given to a new profile picture: `image/` and the URI's last
      `.`-separated segment. */
  function ProfilePicType(uri: string): (t: string)
    ensures |t| >= 6 && t[..6] == "image/"
    ensures '.' !in t[6..]
    ensures |t| - 6 <= |uri| && t[6..] == uri[|uri| - (|t| - 6)..]
    ensures |t| - 6 == |uri| || uri[|uri| - (|t| - 6) - 1] == '.'
  {
    "image/" + Text.LastSegment(uri, '.')
  }

  /** A picture at `<stem>.<ext>` is typed `image/<ext>`. */
  lemma {:induction false} ProfilePicTypeOfNamedUri(stem: string, ext: string)
    requires '.' !in ext
    ensures ProfilePicType(stem + "." + ext) == "image/" + ext
  {
    Text.LastSegmentOfAppend(stem, '.', ext);
  }
}

=== FILE: register_form.dfy ===
/** The sign-up form: the checks it makes before calling the authentication service
    and the calls it makes. */
module RegisterForm {
  import opened Common
  import opened Store
  import opened Server
  import ServerProps

  datatype SignUp = SignUp(
    name: string,
    email: string,
    password: string,
    phone: string,
    nickname: string,
    profilePic: Option<string>)

  /** A call to the authentication service. */
  datatype AuthCall = CheckNicknameCall(nickname: string) | RegisterUserCall(body: RegisterBody)

  predicate AllFilled(f: SignUp) {
    f.name != "" && f.email != "" && f.password != "" && f.phone != "" && f.nickname != ""
  }

  /** The registration request built from the form, with the picture as picked. */
  function BodyOf(f: SignUp): RegisterBody {
    RegisterBody(f.name, f.email, f.password, f.phone, f.nickname, f.profilePic)
  }

  /** `handleRegister`, given the nickname check's answer (`None` when the call fails):
      the calls it makes, in order. */
  function HandleRegister(f: SignUp, available: Option<bool>): (calls: seq<AuthCall>)
    ensures |calls| == 0 <==> !AllFilled(f) || |f.nickname| < MinNicknameLength
    ensures |calls| > 0 ==> calls[0] == CheckNicknameCall(f.nickname)
    ensures |calls| == if !AllFilled(f) || |f.nickname| < MinNicknameLength then 0
                       else if available == Some(true) then 2 else 1
    ensures (exists c :: c in calls && c.RegisterUserCall?) <==>
              AllFilled(f) && |f.nickname| >= MinNicknameLength && available == Some(true)
    ensures forall c :: c in calls && c.RegisterUserCall? ==> c.body == BodyOf(f)
  {
    if !AllFilled(f) then []
    else if |f.nickname| < MinNicknameLength then []
    else if available != Some(true) then [CheckNicknameCall(f.nickname)]
    else
      var calls := [CheckNicknameCall(f.nickname), RegisterUserCall(BodyOf(f))];
      assert calls[1] in calls;
      calls
  }

  /** Against the server, the form never sends a registration the server refuses for
      its nickname: anything it checks is long enough for the server, and it
      registers only a nickname the server reports free. */
  lemma {:induction false} FormAgreesWithServer(s: Store, f: SignUp)
    ensures var calls := HandleRegister(f, Some(CheckNickname(s, Some(f.nickname)).available));
            && (|calls| > 0 ==> !CheckNickname(s, Some(f.nickname)).tooShort)
            && (forall c :: c in calls && c.RegisterUserCall? ==>
                  Register(s, c.body).response != Err(NicknameInUse))
            && (AllFilled(f) && |f.nickname| >= MinNicknameLength && NicknameTaken(s, f.nickname) ==>
                  forall c :: c in calls ==> !c.RegisterUserCall?)
  {
    if AllFilled(f) && |f.nickname| >= MinNicknameLength {
      ServerProps.NicknameCheckPredictsRegister(s, BodyOf(f));
    }
  }
}

=== FILE: report_form.dfy ===
/** The report form, used both to file a new report and to edit an existing one:
    its fields, the events that change them, the media upload part and the call
    that submitting makes. */
module ReportForm {
  import opened Common
  import opened Store
  import opened Server
  import Text

  /** The report handed to the screen for editing. */
  datatype EditTarget = EditTarget(
    id: Id,
    title: Option<string>,
    description: Option<string>,
    location: Option<string>,
    isAnonymous: bool,
    photoUri: Option<string>,
    mediaType: Option<string>)

  datatype Form = Form(
    editing: Option<Id>,
    title: string,
    description: string,
    location: string,
    isAnonymous: bool,
    mediaUrl: Option<string>,
    mediaType: Option<string>,
    uploading: bool)

  /** The form as the screen opens it: the edited report's fields, or empty. */
  function Initial(target: Option<EditTarget>): (f: Form)
    ensures f.editing.Some? <==> target.Some?
    ensures target.None? ==> f == Form(None, "", "", "", false, None, None, false)
    ensures target.Some? ==>
              && f.editing == Some(target.value.id)
              && f.title == OrElse(target.value.title, "")
              && f.description == OrElse(target.value.description, "")
              && f.location == OrElse(target.value.location, "")
              && f.isAnonymous == target.value.isAnonymous
              && f.mediaUrl == OrNull(target.value.photoUri)
              && f.mediaType == OrNull(target.value.mediaType)
              && !f.uploading
  {
    match target
    case None => Form(None, "", "", "", false, None, None, false)
    case Some(t) =>
      Form(Some(t.id), OrElse(t.title, ""), OrElse(t.description, ""), OrElse(t.location, ""),
           t.isAnonymous, OrNull(t.photoUri), OrNull(t.mediaType), false)
  }

  // ---------------------------------------------------------------- upload

  /** A picked photo or video. */
  datatype Asset = Asset(uri: string, assetType: string)

  /** The multipart `media` part of the upload request. */
  datatype UploadPart = UploadPart(uri: string, name: string, mimeType: string)

  /** The file extension: the last `.`-separated segment of the URI, or the whole
      URI when it has no dot. */
  function Extension(uri: string): (ext: string)
    ensures '.' !in ext
    ensures |ext| <= |uri| && ext == uri[|uri| - |ext|..]
    ensures |ext| == |uri| || uri[|uri| - |ext| - 1] == '.'
  {
    Text.LastSegment(uri, '.')
  }

  /** `handleUpload`'s form part: named `upload.<ext>`, typed `<asset type>/<ext>`. */
  function UploadFile(a: Asset): (p: UploadPart)
    ensures p.uri == a.uri
    ensures p.name == "upload." + Extension(a.uri)
    ensures p.mimeType == a.assetType + "/" + Extension(a.uri)
  {
    var ext := Extension(a.uri);
    UploadPart(a.uri, "upload." + ext, a.assetType + "/" + ext)
  }

  /** A file named `<stem>.<ext>` is uploaded as `upload.<ext>` of type
      `<asset type>/<ext>`, whatever dots the stem holds. */
  lemma {:induction false} UploadKeepsExtension(stem: string, ext: string, assetType: string)
    requires '.' !in ext
    ensures UploadFile(Asset(stem + "." + ext, assetType)) ==
            UploadPart(stem + "." + ext, "upload." + ext, assetType + "/" + ext)
  {
    Text.LastSegmentOfAppend(stem, '.', ext);
  }

  // ---------------------------------------------------------------- events

  datatype Event =
    | SetTitle(text: string)
    | SetDescription(text: string)
    | SetLocation(text: string)
    | SetAnonymous(on: bool)
    | PickMedia(asset: Asset)
    | UploadSucceeded(url: string, mediaType: string)
    | UploadFailed

  /** `pickMedia` opens the picker only outside edit mode. */
  function OpensPicker(f: Form): (opens: bool)
    ensures opens <==> f.editing.None?
  {
    f.editing.None?
  }

  /** One event. The anonymity switch is disabled while editing, picking media is
      refused while editing, and upload answers are taken only while uploading. */
  function Apply(f: Form, e: Event): (r: Form)
    ensures r.editing == f.editing
    ensures r.isAnonymous != f.isAnonymous ==> f.editing.None? && e == SetAnonymous(r.isAnonymous)
    ensures r.uploading && !f.uploading ==> f.editing.None? && e.PickMedia?
    ensures r.mediaUrl != f.mediaUrl || r.mediaType != f.mediaType ==>
              f.uploading && e.UploadSucceeded? && !r.uploading
              && r.mediaUrl == Some(e.url) && r.mediaType == Some(e.mediaType)
    ensures (e.UploadSucceeded? || e.UploadFailed?) ==> !r.uploading
    ensures e.SetAnonymous? && f.editing.None? ==> r.isAnonymous == e.on
    ensures e.PickMedia? ==> (r.uploading <==> f.uploading || OpensPicker(f))
    ensures e.UploadSucceeded? && f.uploading ==> r.mediaUrl == Some(e.url) && r.mediaType == Some(e.mediaType)
    ensures r.title == (if e.SetTitle? then e.text else f.title)
    ensures r.description == (if e.SetDescription? then e.text else f.description)
    ensures r.location == (if e.SetLocation? then e.text else f.location)
  {
    match e
    case SetTitle(t) => f.(title := t)
    case SetDescription(t) => f.(description := t)
    case SetLocation(t) => f.(location := t)
    case SetAnonymous(on) => if f.editing.Some? then f else f.(isAnonymous := on)
    case PickMedia(_) => if OpensPicker(f) then f.(uploading := true) else f
    case UploadSucceeded(url, t) =>
      if f.uploading then f.(mediaUrl := Some(url), mediaType := Some(t), uploading := false) else f
    case UploadFailed => f.(uploading := false)
  }

  function Run(f: Form, events: seq<Event>): Form
    decreases |events|
  {
    if |events| == 0 then f else Run(Apply(f, events[0]), events[1..])
  }

  /** In edit mode no sequence of events changes the anonymity flag or the media,
      and no upload starts. */
  lemma {:induction false} EditModeLocksMediaAndAnonymity(f: Form, events: seq<Event>)
    requires f.editing.Some? && !f.uploading
    ensures var g := Run(f, events);
            && g.editing == f.editing
            && g.isAnonymous == f.isAnonymous
            && g.mediaUrl == f.mediaUrl && g.mediaType == f.mediaType
            && !g.uploading
    decreases |events|
  {
    if |events| > 0 {
      EditModeLocksMediaAndAnonymity(Apply(f, events[0]), events[1..]);
    }
  }

  // ---------------------------------------------------------------- submit

  /** `location.trim() || null`. */
  function LocationOrNull(location: string): (r: Option<string>)
    ensures r.None? <==> Text.Blank(location)
    ensures r.Some? ==> r.value == Text.Trim(location) && r.value != ""
  {
    var t := Text.Trim(location);
    if t == [] then None else Some(t)
  }

  datatype Refusal = MissingTitleOrDescription | UploadInProgress

  /** What `updateReport` is sent: text only. */
  datatype EditPayload = EditPayload(title: string, description: string, location: Option<string>)

  /** What `createReport` is sent. */
  datatype CreatePayload = CreatePayload(
    userId: Option<Id>,
    title: string,
    description: string,
    location: Option<string>,
    isAnonymous: bool,
    mediaUrl: Option<string>,
    mediaType: Option<string>)

  datatype Submission =
    | Refused(reason: Refusal)
    | UpdateCall(reportId: Id, data: EditPayload, userId: Id)
    | CreateCall(payload: CreatePayload)

  /** `submitReport` by the user `userId`. */
  function Submit(f: Form, userId: Id): (r: Submission)
    ensures r.Refused? <==> Text.Blank(f.title) || Text.Blank(f.description) || f.uploading
    ensures Text.Blank(f.title) || Text.Blank(f.description) ==> r == Refused(MissingTitleOrDescription)
    ensures !Text.Blank(f.title) && !Text.Blank(f.description) && f.uploading ==> r == Refused(UploadInProgress)
    ensures r.UpdateCall? <==> !r.Refused? && f.editing.Some?
    ensures r.UpdateCall? ==>
              r == UpdateCall(f.editing.value,
                              EditPayload(Text.Trim(f.title), Text.Trim(f.description), LocationOrNull(f.location)),
                              userId)
    ensures r.CreateCall? ==>
              var p := r.payload;
              && (p.userId.None? <==> f.isAnonymous)
              && (p.userId.Some? ==> p.userId.value == userId)
              && p.title == Text.Trim(f.title) && p.title != ""
              && p.description == Text.Trim(f.description) && p.description != ""
              && p.location == LocationOrNull(f.location)
              && p.isAnonymous == f.isAnonymous
              && p.mediaUrl == f.mediaUrl && p.mediaType == f.mediaType
  {
    var title := Text.Trim(f.title);
    var description := Text.Trim(f.description);
    if title == [] || description == [] then Refused(MissingTitleOrDescription)
    else if f.uploading then Refused(UploadInProgress)
    else match f.editing
      case Some(id) => UpdateCall(id, EditPayload(title, description, LocationOrNull(f.location)), userId)
      case None =>
        CreateCall(CreatePayload(if f.isAnonymous then None else Some(userId),
                                 title, description, LocationOrNull(f.location),
                                 f.isAnonymous, f.mediaUrl, f.mediaType))
  }

  /** The create payload as the server reads it: the server takes the picture from
      a `photo` field that the payload does not have. */
  function AsReportBody(p: CreatePayload): ReportBody {
    ReportBody(p.userId, Some(p.title), Some(p.description), p.location, p.isAnonymous, None)
  }

  /** A new-report form with a title and a description and no upload running makes a
      create call. The server accepts it and stores the trimmed texts, no author
      exactly for an anonymous report, the location when one was typed, and no
      media reference. */
  lemma {:induction false} CreateCallAccepted(f: Form, userId: Id, s: Store, now: int)
    requires !Text.Blank(f.title) && !Text.Blank(f.description) && !f.uploading && f.editing.None?
    ensures Submit(f, userId).CreateCall?
    ensures var out := CreateReport(s, AsReportBody(Submit(f, userId).payload), now);
            && out.response.Ok?
            && out.response.value.title == Text.Trim(f.title)
            && out.response.value.description == Text.Trim(f.description)
            && (out.response.value.userId.None? <==> f.isAnonymous)
            && (out.response.value.location.None? <==> Text.Blank(f.location))
            && out.response.value.photoUri.None?
  {
  }

  /** Filing a new report with a picture: type the title and the description,
      pick the picture and receive the upload's answer. */
  function FilingEvents(title: string, description: string, a: Asset, url: string, mediaType: string): seq<Event> {
    [SetTitle(title), SetDescription(description), PickMedia(a), UploadSucceeded(url, mediaType)]
  }

  /** Those events take the freshly opened form to one that holds the texts and the
      uploaded media, with no upload running. */
  lemma {:induction false} FilingFillsForm(
    title: string, description: string, a: Asset, url: string, mediaType: string)
    ensures Run(Initial(None), FilingEvents(title, description, a, url, mediaType)) ==
            Form(None, title, description, "", false, Some(url), Some(mediaType), false)
  {
    var es := FilingEvents(title, description, a, url, mediaType);
    var f0 := Initial(None);
    var f1 := Apply(f0, es[0]);
    var f2 := Apply(f1, es[1]);
    var f3 := Apply(f2, es[2]);
    var f4 := Apply(f3, es[3]);
    assert f3.uploading;
    assert es[1..][1..][1..][1..] == [];
    calc {
      Run(f0, es);
      Run(f1, es[1..]);
      Run(f2, es[1..][1..]);
      Run(f3, es[1..][1..][1..]);
      Run(f4, es[1..][1..][1..][1..]);
    }
  }

  /** An uploaded picture never reaches the stored report: after a new report is
      filed with a picture, the create call carries the upload's URL, yet the server
      stores the report without a photo. */
  lemma {:induction false} MediaUrlIsDropped(
    s: Store, now: int, userId: Id,
    title: string, description: string, a: Asset, url: string, mediaType: string)
    requires !Text.Blank(title) && !Text.Blank(description)
    ensures var f := Run(Initial(None), FilingEvents(title, description, a, url, mediaType));
            && f.mediaUrl == Some(url)
            && Submit(f, userId).CreateCall?
            && Submit(f, userId).payload.mediaUrl == Some(url)
            && var out := CreateReport(s, AsReportBody(Submit(f, userId).payload), now);
               && out.response.Ok?
               && out.response.value.photoUri.None?
  {
    FilingFillsForm(title, description, a, url, mediaType);
    var f := Run(Initial(None), FilingEvents(title, description, a, url, mediaType));
    CreateCallAccepted(f, userId, s, now);
  }

  /** The create payload with the media URL in the field the server reads. */
  function AsReportBodyWithMedia(p: CreatePayload): ReportBody {
    ReportBody(p.userId, Some(p.title), Some(p.description), p.location, p.isAnonymous, p.mediaUrl)
  }

  /** With the media URL sent where the server reads it, the stored report keeps the
      uploaded media, and everything else is stored as before. */
  lemma {:induction false} CreateCallKeepsMedia(f: Form, userId: Id, s: Store, now: int)
    requires !Text.Blank(f.title) && !Text.Blank(f.description) && !f.uploading && f.editing.None?
    ensures Submit(f, userId).CreateCall?
    ensures var out := CreateReport(s, AsReportBodyWithMedia(Submit(f, userId).payload), now);
            && out.response.Ok?
            && out.response.value.photoUri == OrNull(f.mediaUrl)
            && out.response.value.title == Text.Trim(f.title)
            && out.response.value.description == Text.Trim(f.description)
            && (out.response.value.userId.None? <==> f.isAnonymous)
            && (out.response.value.location.None? <==> Text.Blank(f.location))
  {
  }
}

=== FILE: reset_password.dfy ===
/** The two-step password reset: the code is verified first, then the new password
    is sent together with the verified code. */
module ResetPassword {
  import opened Common
  import Text

  const CodeLength := 6

  /** Step 1 shows the code field, step 2 the two password fields. */
  datatype ResetState = ResetState(step: nat, code: string, newPassword: string, confirmPassword: string)

  const Start := ResetState(1, "", "", "")

  /** What the user does. Only the fields of the current step can be typed in. */
  datatype Event =
    | TypeCode(code: string)
    | TypeNewPassword(password: string)
    | TypeConfirmation(password: string)
    | PressVerify(accepted: bool)   // the service's verdict on the code
    | PressReset

  /** A call to the authentication service; a verify call records the verdict. */
  datatype Call =
    | VerifyCall(email: string, code: string, accepted: bool)
    | ResetCall(email: string, code: string, newPassword: string)

  datatype Outcome = Outcome(state: ResetState, call: Option<Call>)

  /** One event on the screen opened for `email`. */
  function Apply(st: ResetState, email: string, e: Event): (out: Outcome)
    ensures e.PressVerify? && st.step == 1 && |st.code| != CodeLength ==> out == Outcome(st, None)
    ensures out.state.step == 2 && st.step != 2 <==>
              st.step == 1 && e == PressVerify(true) && |st.code| == CodeLength
    ensures out.state.step != st.step ==> st.step == 1 && out.state.step == 2
    ensures out.state.step == 2 ==> out.state.code == st.code
    ensures out.call.Some? && out.call.value.VerifyCall? <==>
              e.PressVerify? && st.step == 1 && |st.code| == CodeLength
    ensures out.call.Some? && out.call.value.VerifyCall? ==>
              out.call.value == VerifyCall(email, st.code, e.accepted)
    ensures out.call.Some? && out.call.value.ResetCall? <==>
              && e.PressReset? && st.step == 2
              && !Text.Blank(st.newPassword) && !Text.Blank(st.confirmPassword)
              && st.newPassword == st.confirmPassword
    ensures out.call.Some? && out.call.value.ResetCall? ==>
              out.call.value == ResetCall(email, st.code, st.newPassword)
  {
    match e
    case TypeCode(c) => Outcome(if st.step == 1 then st.(code := c) else st, None)
    case TypeNewPassword(p) => Outcome(if st.step == 2 then st.(newPassword := p) else st, None)
    case TypeConfirmation(p) => Outcome(if st.step == 2 then st.(confirmPassword := p) else st, None)
    case PressVerify(accepted) =>
      if st.step != 1 || |st.code| != CodeLength then Outcome(st, None)
      else Outcome(if accepted then st.(step := 2) else st, Some(VerifyCall(email, st.code, accepted)))
    case PressReset =>
      if st.step != 2 then Outcome(st, None)
      else if Text.Trim(st.newPassword) == [] || Text.Trim(st.confirmPassword) == [] then Outcome(st, None)
      else if st.newPassword != st.confirmPassword then Outcome(st, None)
      else Outcome(st, Some(ResetCall(email, st.code, st.newPassword)))
  }

  /** The state after `events` and the calls made, appended to `calls`. */
  function Run(st: ResetState, email: string, calls: seq<Call>, events: seq<Event>): (ResetState, seq<Call>)
    decreases |events|
  {
    if |events| == 0 then (st, calls)
    else
      var out := Apply(st, email, events[0]);
      Run(out.state, email, calls + (if out.call.Some? then [out.call.value] else []), events[1..])
  }

  /** The call at `j` is preceded by an accepted verification of its code for `email`. */
  predicate VerifiedBefore(calls: seq<Call>, j: nat, email: string)
    requires j < |calls|
  {
    exists i :: 0 <= i < j && calls[i] == VerifyCall(email, calls[j].code, true)
  }

  /** What holds at every point of a session: the step is 1 or 2, step 2 is reached
      only through an accepted verification of the current code, and every reset
      call so far is for `email` and follows an accepted verification of its code. */
  predicate Invariant(st: ResetState, email: string, calls: seq<Call>) {
    && (st.step == 1 || st.step == 2)
    && (st.step == 2 ==> VerifyCall(email, st.code, true) in calls)
    && (forall j :: 0 <= j < |calls| && calls[j].ResetCall? ==>
          calls[j].email == email && VerifiedBefore(calls, j, email))
  }

  /** Appending calls keeps every earlier reset call verified before it. */
  lemma VerifiedBeforeKept(calls: seq<Call>, extra: seq<Call>, email: string)
    requires forall j :: 0 <= j < |calls| && calls[j].ResetCall? ==>
               calls[j].email == email && VerifiedBefore(calls, j, email)
    ensures forall j :: 0 <= j < |calls| && (calls + extra)[j].ResetCall? ==>
              (calls + extra)[j].email == email && VerifiedBefore(calls + extra, j, email)
  {
    var next := calls + extra;
    forall j | 0 <= j < |calls| && next[j].ResetCall?
      ensures next[j].email == email && VerifiedBefore(next, j, email)
    {
      assert next[j] == calls[j];
      var i :| 0 <= i < j && calls[i] == VerifyCall(email, calls[j].code, true);
      assert next[i] == calls[i];
    }
  }

  /** A reset call appended after an accepted verification of its code is verified
      before it. */
  lemma AppendedResetVerified(calls: seq<Call>, email: string, code: string, password: string)
    requires VerifyCall(email, code, true) in calls
    ensures VerifiedBefore(calls + [ResetCall(email, code, password)], |calls|, email)
  {
    var next := calls + [ResetCall(email, code, password)];
    var k :| 0 <= k < |calls| && calls[k] == VerifyCall(email, code, true);
    assert next[k] == calls[k];
  }

  lemma {:induction false} ApplyKeepsInvariant(st: ResetState, email: string, calls: seq<Call>, e: Event)
    requires Invariant(st, email, calls)
    ensures var out := Apply(st, email, e);
            Invariant(out.state, email, calls + (if out.call.Some? then [out.call.value] else []))
  {
    var out := Apply(st, email, e);
    var extra := if out.call.Some? then [out.call.value] else [];
    var next := calls + extra;
    VerifiedBeforeKept(calls, extra, email);
    if out.call.Some? && out.call.value.ResetCall? {
      AppendedResetVerified(calls, email, st.code, st.newPassword);
    }
    if out.state.step == 2 && out.call.Some? {
      assert out.call.value in next;
    }
    assert VerifyCall(email, st.code, true) in calls ==> VerifyCall(email, st.code, true) in next;
  }

  lemma {:induction false} RunKeepsInvariant(st: ResetState, email: string, calls: seq<Call>, events: seq<Event>)
    requires Invariant(st, email, calls)
    ensures Invariant(Run(st, email, calls, events).0, email, Run(st, email, calls, events).1)
    decreases |events|
  {
    if |events| > 0 {
      var out := Apply(st, email, events[0]);
      ApplyKeepsInvariant(st, email, calls, events[0]);
      RunKeepsInvariant(out.state, email, calls + (if out.call.Some? then [out.call.value] else []), events[1..]);
    }
  }

  /** From the start of the flow, every reset request carries the screen's e-mail and a
      code the service accepted earlier in the session. */
  lemma {:induction false} ResetFollowsAcceptedCode(email: string, events: seq<Event>)
    ensures var calls := Run(Start, email, [], events).1;
            forall j :: 0 <= j < |calls| && calls[j].ResetCall? ==>
              calls[j].email == email && VerifiedBefore(calls, j, email)
  {
    RunKeepsInvariant(Start, email, [], events);
  }
}

=== FILE: seqs.dfy ===
/** Sequence operations shared by the server's queries and the screens' lists:
    the order-preserving filter behind `Array.prototype.filter` and `WHERE`, and the
    newest-first ordering behind `ORDER BY created_at DESC`. */
module Seqs {

  /** `a` is obtained from `b` by deleting elements, keeping the order of the rest. */
  ghost predicate IsSubsequence<T>(a: seq<T>, b: seq<T>)
    decreases |b|
  {
    |a| == 0 ||
    (|b| > 0 && ((a[0] == b[0] && IsSubsequence(a[1..], b[1..])) || IsSubsequence(a, b[1..])))
  }

  /** The elements of `s` that satisfy `p`, in their original order. */
  function Filter<T(!new)>(s: seq<T>, p: T -> bool): (r: seq<T>)
    ensures |r| <= |s|
    ensures forall x :: x in r <==> x in s && p(x)
    ensures IsSubsequence(r, s)
    decreases |s|
  {
    if |s| == 0 then []
    else
      var rest := Filter(s[1..], p);
      assert s == [s[0]] + s[1..];
      if p(s[0]) then [s[0]] + rest else rest
  }

  /** Each kept element occurs in the result as often as in `s`; the others not at all. */
  lemma {:induction false} FilterCount<T(!new)>(s: seq<T>, p: T -> bool)
    ensures forall x :: multiset(Filter(s, p))[x] == if p(x) then multiset(s)[x] else 0
    decreases |s|
  {
    if |s| > 0 {
      FilterCount(s[1..], p);
      assert s == [s[0]] + s[1..];
    }
  }

  /** Keeping everything keeps the sequence as it is. */
  lemma {:induction false} FilterAll<T(!new)>(s: seq<T>, p: T -> bool)
    requires forall x :: x in s ==> p(x)
    ensures Filter(s, p) == s
    decreases |s|
  {
    if |s| > 0 {
      FilterAll(s[1..], p);
    }
  }

  /** Filtering by two predicates that agree everywhere gives the same result. */
  lemma {:induction false} FilterSamePredicate<T(!new)>(s: seq<T>, p: T -> bool, q: T -> bool)
    requires forall x :: p(x) == q(x)
    ensures Filter(s, p) == Filter(s, q)
    decreases |s|
  {
    if |s| > 0 {
      FilterSamePredicate(s[1..], p, q);
    }
  }

  /** The elements kept by a predicate and the elements kept by its negation
      together account for the whole sequence. */
  lemma {:induction false} FilterPartition<T(!new)>(s: seq<T>, p: T -> bool, q: T -> bool)
    requires forall x :: q(x) == !p(x)
    ensures |Filter(s, p)| + |Filter(s, q)| == |s|
    decreases |s|
  {
    if |s| > 0 {
      FilterPartition(s[1..], p, q);
    }
  }

  /** Keys never increase along `s`. */
  predicate NonIncreasing<T>(s: seq<T>, key: T -> int) {
    forall i, j :: 0 <= i < j < |s| ==> key(s[i]) >= key(s[j])
  }

  /** Places `x` in front of the first element whose key is not greater than its own. */
  function Insert<T>(x: T, s: seq<T>, key: T -> int): (r: seq<T>)
    requires NonIncreasing(s, key)
    ensures NonIncreasing(r, key)
    ensures multiset(r) == multiset(s) + multiset{x}
    ensures |r| == |s| + 1 && (r[0] == x || (|s| > 0 && r[0] == s[0]))
    decreases |s|
  {
    if |s| == 0 || key(s[0]) <= key(x) then [x] + s
    else
      var rest := Insert(x, s[1..], key);
      assert s == [s[0]] + s[1..];
      assert key(s[0]) >= key(rest[0]);
      [s[0]] + rest
  }

  /** The elements of `s`, newest (largest key) first. */
  function SortDescending<T(!new)>(s: seq<T>, key: T -> int): (r: seq<T>)
    ensures NonIncreasing(r, key)
    ensures multiset(r) == multiset(s)
    ensures forall x :: x in r <==> x in s
    decreases |s|
  {
    if |s| == 0 then []
    else
      assert s == [s[0]] + s[1..];
      var r := Insert(s[0], SortDescending(s[1..], key), key);
      assert forall x :: x in r <==> x in s by {
        forall x ensures x in r <==> x in s {
          assert x in r <==> x in multiset(r);
          assert x in s <==> x in multiset(s);
        }
      }
      r
  }
}

=== FILE: server.dfy ===
/** The REST routes of the server, each a pure step from the store and the request
    to the reply and the new store. The SQL each route issues is read as the
    corresponding query or update of the abstract tables in `Store`. */
module Server {
  import opened Common
  import opened Store
  import Seqs

  /** The non-2xx replies the routes send, by the message they carry: 400 for a taken
      nickname or e-mail and for a missing title or description, 401 for bad
      credentials, 403 for a comment that is not the caller's, 404 for an unknown
      report, 500 for a failed query. */
  datatype ApiError =
    | NicknameInUse
    | EmailInUse
    | InvalidCredentials
    | TitleAndDescriptionRequired
    | ReportNotFound
    | CommentEditForbidden
    | CommentDeleteForbidden
    | InternalError

  datatype Result<T> = Ok(value: T) | Err(error: ApiError)

  /** A route's reply together with the store it leaves behind. */
  datatype Step<T> = Step(response: Result<T>, store: Store)

  /** The avatar substituted at login for a user without a profile picture. */
  const DefaultAvatar := "https://cdn-icons-png.flaticon.com/512/1946/1946429.png"

  // ---------------------------------------------------------------- registration

  datatype RegisterBody = RegisterBody(
    name: string,
    email: string,
    password: string,
    phone: string,
    nickname: string,
    profilePic: Option<string>)

  /** The columns `RETURNING id, name, email, nickname, profile_pic` gives back. */
  datatype UserSummary = UserSummary(
    id: Id, name: string, email: string, nickname: string, profilePic: Option<string>)

  function Summary(u: User): UserSummary {
    UserSummary(u.id, u.name, u.email, u.nickname, u.profilePic)
  }

  /** The row `POST /auth/register` inserts for `body`. */
  function NewUser(s: Store, body: RegisterBody): User {
    User(s.nextUserId, body.name, body.email, body.password, body.phone, body.nickname,
         OrNull(body.profilePic))
  }

  /** `POST /auth/register`: the nickname check comes before the e-mail check, and
      only a request passing both adds a user. */
  function Register(s: Store, body: RegisterBody): (out: Step<UserSummary>)
    ensures NicknameTaken(s, body.nickname) ==> out == Step(Err(NicknameInUse), s)
    ensures !NicknameTaken(s, body.nickname) && EmailTaken(s, body.email) ==>
              out == Step(Err(EmailInUse), s)
    ensures out.response.Ok? <==> !NicknameTaken(s, body.nickname) && !EmailTaken(s, body.email)
    ensures out.response.Ok? ==>
              && out.store == s.(users := s.users + [NewUser(s, body)], nextUserId := s.nextUserId + 1)
              && out.response.value == Summary(NewUser(s, body))
  {
    if NicknameTaken(s, body.nickname) then Step(Err(NicknameInUse), s)
    else if EmailTaken(s, body.email) then Step(Err(EmailInUse), s)
    else
      var u := NewUser(s, body);
      Step(Ok(Summary(u)), s.(users := s.users + [u], nextUserId := s.nextUserId + 1))
  }

  // ---------------------------------------------------------------- login

  /** A stored user as login returns it: an absent or empty picture is replaced by
      the default avatar. */
  function WithAvatar(u: User): User {
    u.(profilePic := Some(OrElse(u.profilePic, DefaultAvatar)))
  }

  predicate HasCredentials(u: User, email: string, password: string) {
    u.email == email && u.password == password
  }

  /** `POST /auth/login`: the first stored user with exactly this e-mail and password. */
  function Login(s: Store, email: string, password: string): (r: Result<User>)
    ensures r.Ok? <==> exists u :: u in s.users && HasCredentials(u, email, password)
    ensures r.Ok? ==> exists u :: u in s.users && HasCredentials(u, email, password) && r.value == WithAvatar(u)
    ensures r.Ok? ==> r.value.profilePic.Some? && r.value.profilePic.value != ""
    ensures r.Err? ==> r.error == InvalidCredentials
  {
    var found := Seqs.Filter(s.users, u => HasCredentials(u, email, password));
    if |found| == 0 then Err(InvalidCredentials)
    else
      assert found[0] in found;
      Ok(WithAvatar(found[0]))
  }

  // ---------------------------------------------------------------- reports

  datatype ReportBody = ReportBody(
    userId: Option<Id>,
    title: Option<string>,
    description: Option<string>,
    location: Option<string>,
    isAnonymous: bool,
    photo: Option<string>)

  /** The row `POST /api/reports` inserts: no author when anonymous, and null
      location and photo when they are missing or empty. */
  function NewReport(s: Store, body: ReportBody, now: int): Report
    requires Truthy(body.title) && Truthy(body.description)
  {
    Report(s.nextReportId,
           if body.isAnonymous then None else body.userId,
           body.title.value,
           body.description.value,
           OrNull(body.location),
           body.isAnonymous,
           OrNull(body.photo),
           now)
  }

  /** `POST /api/reports`, at time `now`. */
  function CreateReport(s: Store, body: ReportBody, now: int): (out: Step<Report>)
    ensures !Truthy(body.title) || !Truthy(body.description) ==>
              out == Step(Err(TitleAndDescriptionRequired), s)
    ensures out.response.Ok? <==> Truthy(body.title) && Truthy(body.description)
    ensures out.response.Ok? ==>
              var r := out.response.value;
              && out.store == s.(reports := s.reports + [r], nextReportId := s.nextReportId + 1)
              && r.id == s.nextReportId && r.createdAt == now
              && r.title == body.title.value && r.description == body.description.value
              && (r.userId.None? <==> body.isAnonymous || body.userId.None?)
              && (!body.isAnonymous ==> r.userId == body.userId)
              && r.isAnonymous == body.isAnonymous
              && (r.location.Some? <==> Truthy(body.location))
              && (r.photoUri.Some? <==> Truthy(body.photo))
              && r.location == OrNull(body.location) && r.photoUri == OrNull(body.photo)
  {
    if !Truthy(body.title) || !Truthy(body.description) then
      Step(Err(TitleAndDescriptionRequired), s)
    else
      var r := NewReport(s, body, now);
      Step(Ok(r), s.(reports := s.reports + [r], nextReportId := s.nextReportId + 1))
  }

  /** `GET /api/reports/:id`. */
  function GetReport(s: Store, id: Id): (r: Result<Report>)
    ensures r.Ok? <==> exists x :: x in s.reports && x.id == id
    ensures r.Ok? ==> r.value in s.reports && r.value.id == id
    ensures r.Err? ==> r.error == ReportNotFound
  {
    var found := Seqs.Filter(s.reports, (x: Report) => x.id == id);
    if |found| == 0 then Err(ReportNotFound)
    else
      assert found[0] in found;
      Ok(found[0])
  }

  /** The `userId` query parameter of the list route, after JavaScript's
      `userId && !isNaN(userId)` test and `parseInt`. */
  datatype UserIdParam = NoUserId | NumericId(n: nat) | NotANumber

  datatype ListQuery = ListQuery(userId: UserIdParam, filter: Option<string>)

  /** The `WHERE` clause `GET /api/reports` builds: a numeric user id wins over
      `filter`; otherwise `anonymous` and `identified` select on the anonymity flag
      and any other filter selects everything. */
  predicate Selects(q: ListQuery, r: Report) {
    match q.userId
    case NumericId(n) => r.userId.Some? && r.userId.value == n
    case _ =>
      if q.filter == Some("anonymous") then r.isAnonymous
      else if q.filter == Some("identified") then !r.isAnonymous
      else true
  }

  function CreatedAt(r: Report): int {
    r.createdAt
  }

  /** The reports the `WHERE` clause keeps, in table order. */
  function Matching(s: Store, q: ListQuery): seq<Report> {
    Seqs.Filter(s.reports, (r: Report) => Selects(q, r))
  }

  /** `u.name` of the `LEFT JOIN users u ON r.user_id = u.id`. */
  function AuthorName(s: Store, r: Report): Option<string> {
    if r.userId.None? then None
    else
      var authors := Seqs.Filter(s.users, (u: User) => u.id == r.userId.value);
      if |authors| == 0 then None else Some(authors[0].name)
  }

  datatype ListedReport = ListedReport(report: Report, userName: Option<string>)

  function ReportsOf(rows: seq<ListedReport>): (rs: seq<Report>)
    ensures |rs| == |rows|
    ensures forall i :: 0 <= i < |rows| ==> rs[i] == rows[i].report
  {
    seq(|rows|, i requires 0 <= i < |rows| => rows[i].report)
  }

  /** `GET /api/reports`: the selected reports with their author's name, newest first. */
  function ListReports(s: Store, q: ListQuery): (rows: seq<ListedReport>)
    ensures forall i, j :: 0 <= i < j < |rows| ==>
              rows[i].report.createdAt >= rows[j].report.createdAt
    ensures multiset(ReportsOf(rows)) == multiset(Matching(s, q))
    ensures forall r :: r in ReportsOf(rows) <==> r in s.reports && Selects(q, r)
    ensures forall i :: 0 <= i < |rows| ==> rows[i].userName == AuthorName(s, rows[i].report)
  {
    var sorted := Seqs.SortDescending(Matching(s, q), CreatedAt);
    var rows := seq(|sorted|, i requires 0 <= i < |sorted| =>
                      ListedReport(sorted[i], AuthorName(s, sorted[i])));
    assert ReportsOf(rows) == sorted;
    rows
  }

  // ---------------------------------------------------------------- likes

  /** `POST /api/reports/:id/like`: removes the pair if present, adds it otherwise,
      and answers whether the report is now liked. */
  function ToggleLike(s: Store, reportId: Id, userId: Id): (out: Step<bool>)
    ensures out.response.Ok?
    ensures out.response.value <==> Like(reportId, userId) !in s.likes
    ensures Like(reportId, userId) in out.store.likes <==> out.response.value
    ensures forall l :: l != Like(reportId, userId) ==> (l in out.store.likes <==> l in s.likes)
    ensures out.store == s.(likes := out.store.likes)
  {
    var pair := Like(reportId, userId);
    if pair in s.likes then Step(Ok(false), s.(likes := s.likes - {pair}))
    else Step(Ok(true), s.(likes := s.likes + {pair}))
  }

  /** `GET /api/reports/:id/likes/check`: whether a like row of this user on this
      report is stored. */
  function LikeChecked(s: Store, reportId: Id, userId: Id): (liked: bool)
    ensures liked <==> exists l :: l in s.likes && l.reportId == reportId && l.userId == userId
  {
    Like(reportId, userId) in s.likes
  }

  /** The users who liked the report. */
  function Likers(likes: set<Like>, reportId: Id): set<Like> {
    set l | l in likes && l.reportId == reportId
  }

  /** The ids of the users who liked the report. */
  function LikedBy(likes: set<Like>, reportId: Id): set<Id> {
    set l | l in likes && l.reportId == reportId :: l.userId
  }

  /** `GET /api/reports/:id/likes/count`: the number of like rows of the report,
      which is the number of distinct users who liked it. */
  function LikeCount(s: Store, reportId: Id): (n: nat)
    ensures n == |LikedBy(s.likes, reportId)|
    ensures n == 0 <==> forall l :: l in s.likes ==> l.reportId != reportId
  {
    LikersByUser(s.likes, reportId);
    var rows := Likers(s.likes, reportId);
    assert (forall l :: l in s.likes ==> l.reportId != reportId) ==> rows == {};
    assert forall l :: l in s.likes && l.reportId == reportId ==> l in rows;
    |rows|
  }

  /** The like rows of one report are determined by their users, so there are as
      many rows as users. */
  lemma {:induction false} LikersByUser(likes: set<Like>, reportId: Id)
    ensures |Likers(likes, reportId)| == |LikedBy(likes, reportId)|
    decreases |likes|
  {
    if likes == {} {
      assert Likers(likes, reportId) == {};
      assert LikedBy(likes, reportId) == {};
    } else {
      var x :| x in likes;
      LikersByUser(likes - {x}, reportId);
      LikersWithout(likes, x, reportId);
      LikedByWithout(likes, x, reportId);
    }
  }

  /** A like row of the report adds itself to the report's rows; any other row adds nothing. */
  lemma LikersWithout(likes: set<Like>, x: Like, reportId: Id)
    requires x in likes
    ensures x.reportId == reportId ==>
              Likers(likes, reportId) == Likers(likes - {x}, reportId) + {x} && x !in Likers(likes - {x}, reportId)
    ensures x.reportId != reportId ==> Likers(likes, reportId) == Likers(likes - {x}, reportId)
  {
  }

  /** A like row of the report adds its user, whom no other row of the report names,
      since a (report, user) pair is stored once; any other row adds nobody. */
  lemma LikedByWithout(likes: set<Like>, x: Like, reportId: Id)
    requires x in likes
    ensures x.reportId == reportId ==>
              LikedBy(likes, reportId) == LikedBy(likes - {x}, reportId) + {x.userId}
              && x.userId !in LikedBy(likes - {x}, reportId)
    ensures x.reportId != reportId ==> LikedBy(likes, reportId) == LikedBy(likes - {x}, reportId)
  {
  }

  // ---------------------------------------------------------------- nickname check

  datatype NicknameAnswer = NicknameAnswer(available: bool, tooShort: bool)

  const MinNicknameLength := 3

  /** `POST /auth/check-nickname`. */
  function CheckNickname(s: Store, nickname: Option<string>): (a: NicknameAnswer)
    ensures !Truthy(nickname) || |nickname.value| < MinNicknameLength ==> a == NicknameAnswer(false, true)
    ensures Truthy(nickname) && |nickname.value| >= MinNicknameLength ==>
              !a.tooShort && (a.available <==> !NicknameTaken(s, nickname.value))
  {
    if !Truthy(nickname) || |nickname.value| < MinNicknameLength then NicknameAnswer(false, true)
    else NicknameAnswer(!NicknameTaken(s, nickname.value), false)
  }

  // ---------------------------------------------------------------- comments

  datatype CommentBody = CommentBody(userId: Id, content: string, parentId: Option<nat>)

  /** `parentId || null`: a missing or zero parent is stored as null, anything else as sent. */
  function StoredParent(parentId: Option<nat>): (r: Option<Id>)
    ensures r.Some? <==> parentId.Some? && parentId.value != 0
    ensures r.Some? ==> r.value == parentId.value
  {
    if parentId.Some? && parentId.value != 0 then Some(parentId.value as Id) else None
  }

  /** A comment row joined with its author's name and picture. */
  datatype CommentView = CommentView(comment: Comment, userName: string, userAvatar: Option<string>)

  /** The first stored user with this id. */
  function FindUser(s: Store, id: Id): (r: Option<User>)
    ensures r.Some? <==> exists u :: u in s.users && u.id == id
    ensures r.Some? ==> r.value in s.users && r.value.id == id
  {
    var found := Seqs.Filter(s.users, (u: User) => u.id == id);
    if |found| == 0 then None
    else
      assert found[0] in found;
      Some(found[0])
  }

  function NewComment(s: Store, reportId: Id, body: CommentBody, now: int): Comment {
    Comment(s.nextCommentId, reportId, body.userId, body.content, StoredParent(body.parentId), now)
  }

  /** `POST /api/reports/:id/comments`. The row is inserted first and the author is
      looked up afterwards, so an unknown author yields a server error after the
      insertion has taken place. Content is not validated. */
  function AddComment(s: Store, reportId: Id, body: CommentBody, now: int): (out: Step<CommentView>)
    ensures out.store == s.(comments := s.comments + [NewComment(s, reportId, body, now)],
                             nextCommentId := s.nextCommentId + 1)
    ensures out.response.Ok? <==> exists u :: u in s.users && u.id == body.userId
    ensures out.response.Ok? ==> out.response.value.comment == NewComment(s, reportId, body, now)
    ensures out.response.Ok? ==>
              exists u :: && u in s.users && u.id == body.userId
                          && out.response.value.userName == u.name
                          && out.response.value.userAvatar == u.profilePic
    ensures out.response.Err? ==> out.response.error == InternalError
  {
    var c := NewComment(s, reportId, body, now);
    var s' := s.(comments := s.comments + [c], nextCommentId := s.nextCommentId + 1);
    match FindUser(s, body.userId)
    case None => Step(Err(InternalError), s')
    case Some(u) => Step(Ok(CommentView(c, u.name, u.profilePic)), s')
  }

  function CommentCreatedAt(c: Comment): int {
    c.createdAt
  }

  predicate HasAuthor(s: Store, c: Comment) {
    exists u :: u in s.users && u.id == c.userId
  }

  /** The report's comments that survive the inner join with `users`, in table order. */
  function ReportComments(s: Store, reportId: Id): seq<Comment> {
    Seqs.Filter(s.comments, (c: Comment) => c.reportId == reportId && HasAuthor(s, c))
  }

  /** A comment row joined with its author's name and picture. */
  function Joined(s: Store, c: Comment): (v: CommentView)
    requires HasAuthor(s, c)
    ensures v.comment == c
    ensures exists u :: u in s.users && u.id == c.userId && v.userName == u.name && v.userAvatar == u.profilePic
  {
    var u := FindUser(s, c.userId).value;
    CommentView(c, u.name, u.profilePic)
  }

  function CommentsOf(rows: seq<CommentView>): (cs: seq<Comment>)
    ensures |cs| == |rows|
    ensures forall i :: 0 <= i < |rows| ==> cs[i] == rows[i].comment
  {
    seq(|rows|, i requires 0 <= i < |rows| => rows[i].comment)
  }

  function JoinAll(s: Store, cs: seq<Comment>): (rows: seq<CommentView>)
    requires forall c :: c in cs ==> HasAuthor(s, c)
    ensures CommentsOf(rows) == cs
  {
    var rows := seq(|cs|, i requires 0 <= i < |cs| => Joined(s, cs[i]));
    assert CommentsOf(rows) == cs;
    rows
  }

  /** `GET /api/reports/:id/comments`: the report's comments with their authors,
      newest first. */
  function ListComments(s: Store, reportId: Id): (rows: seq<CommentView>)
    ensures forall i, j :: 0 <= i < j < |rows| ==>
              rows[i].comment.createdAt >= rows[j].comment.createdAt
    ensures multiset(CommentsOf(rows)) == multiset(ReportComments(s, reportId))
    ensures forall c :: c in CommentsOf(rows) <==>
              c in s.comments && c.reportId == reportId && HasAuthor(s, c)
  {
    var sorted := Seqs.SortDescending(ReportComments(s, reportId), CommentCreatedAt);
    JoinAll(s, sorted)
  }

  /** The caller wrote a stored comment with this id. */
  predicate Owns(s: Store, commentId: Id, userId: Id) {
    exists c :: c in s.comments && c.id == commentId && c.userId == userId
  }

  /** `UPDATE comments SET content = $1 WHERE id = $2`. */
  function SetContent(cs: seq<Comment>, commentId: Id, content: string): (r: seq<Comment>)
    ensures |r| == |cs|
    ensures forall i :: 0 <= i < |cs| ==>
              r[i] == if cs[i].id == commentId then cs[i].(content := content) else cs[i]
  {
    seq(|cs|, i requires 0 <= i < |cs| =>
          if cs[i].id == commentId then cs[i].(content := content) else cs[i])
  }

  /** `PUT /api/reports/:reportId/comments/:commentId`. The report id of the path
      takes no part in the decision. */
  function EditComment(s: Store, pathReportId: Id, commentId: Id, content: string, userId: Id)
    : (out: Step<Comment>)
    ensures out.response.Ok? <==> Owns(s, commentId, userId)
    ensures !Owns(s, commentId, userId) ==> out == Step(Err(CommentEditForbidden), s)
    ensures out.response.Ok? ==>
              && out.store == s.(comments := SetContent(s.comments, commentId, content))
              && out.response.value in out.store.comments
              && out.response.value.id == commentId
              && out.response.value.content == content
  {
    if !Owns(s, commentId, userId) then Step(Err(CommentEditForbidden), s)
    else
      var cs := SetContent(s.comments, commentId, content);
      var found := Seqs.Filter(cs, (c: Comment) => c.id == commentId);
      var c :| c in s.comments && c.id == commentId && c.userId == userId;
      var i :| 0 <= i < |s.comments| && s.comments[i] == c;
      assert cs[i] in found;
      assert found[0] in found;
      Step(Ok(found[0]), s.(comments := cs))
  }

  /** `DELETE /api/reports/:reportId/comments/:commentId`. Replies are left in place
      and the report id of the path takes no part in the decision. */
  function DeleteComment(s: Store, pathReportId: Id, commentId: Id, userId: Id): (out: Step<bool>)
    ensures out.response.Ok? <==> Owns(s, commentId, userId)
    ensures !Owns(s, commentId, userId) ==> out == Step(Err(CommentDeleteForbidden), s)
    ensures out.response.Ok? ==>
              && out.response.value
              && out.store == s.(comments := out.store.comments)
              && (forall c :: c in out.store.comments <==> c in s.comments && c.id != commentId)
              && Seqs.IsSubsequence(out.store.comments, s.comments)
              && (forall c :: multiset(out.store.comments)[c] ==
                               if c.id != commentId then multiset(s.comments)[c] else 0)
  {
    if !Owns(s, commentId, userId) then Step(Err(CommentDeleteForbidden), s)
    else
      var keep := (c: Comment) => c.id != commentId;
      Seqs.FilterCount(s.comments, keep);
      Step(Ok(true), s.(comments := Seqs.Filter(s.comments, keep)))
  }
}

=== FILE: server_props.dfy ===
/** Properties that relate several routes of the server, or a route and the store
    invariant. */
module ServerProps {
  import opened Common
  import opened Store
  import opened Server
  import Seqs

  // ---------------------------------------------------------------- store invariant

  /** Appending a user with the next id, a fresh e-mail and a fresh nickname keeps
      the users table valid. */
  lemma {:induction false} AppendUserKeepsValid(users: seq<User>, next: Id, u: User)
    requires UsersValid(users, next)
    requires u.id == next
    requires forall v :: v in users ==> v.email != u.email && !SameNickname(v.nickname, u.nickname)
    ensures UsersValid(users + [u], next + 1)
  {
    var t := users + [u];
    forall v | v in t ensures v.id < next + 1 && (v != u ==> v in users) {
      if v != u {
        assert v in users;
      }
    }
  }

  lemma {:induction false} RegisterKeepsValid(s: Store, body: RegisterBody)
    requires Valid(s)
    ensures Valid(Register(s, body).store)
  {
    if Register(s, body).response.Ok? {
      var u := NewUser(s, body);
      forall v | v in s.users ensures v.email != u.email && !SameNickname(v.nickname, u.nickname) {
        assert !SameNickname(v.nickname, body.nickname);
      }
      AppendUserKeepsValid(s.users, s.nextUserId, u);
    }
  }

  lemma {:induction false} CreateReportKeepsValid(s: Store, body: ReportBody, now: int)
    requires Valid(s)
    ensures Valid(CreateReport(s, body, now).store)
  {
  }

  lemma {:induction false} AddCommentKeepsValid(s: Store, reportId: Id, body: CommentBody, now: int)
    requires Valid(s)
    ensures Valid(AddComment(s, reportId, body, now).store)
  {
    var c := NewComment(s, reportId, body, now);
    var cs := s.comments + [c];
    forall d | d in cs ensures d.id < s.nextCommentId + 1 && (d.id == c.id ==> d == c) {
      if d != c {
        assert d in s.comments;
      }
    }
    assert CommentsValid(cs, s.nextCommentId + 1);
  }

  /** Changing the content of comments keeps their ids, so the comments stay valid. */
  lemma {:induction false} SetContentKeepsValid(cs: seq<Comment>, next: Id, commentId: Id, content: string)
    requires CommentsValid(cs, next)
    ensures CommentsValid(SetContent(cs, commentId, content), next)
  {
    var t := SetContent(cs, commentId, content);
    forall i | 0 <= i < |t| ensures t[i].id == cs[i].id && t[i].id < next {
      assert cs[i] in cs;
    }
    forall c, d | c in t && d in t && c.id == d.id ensures c == d {
      var i :| 0 <= i < |t| && t[i] == c;
      var j :| 0 <= j < |t| && t[j] == d;
      assert cs[i] in cs && cs[j] in cs;
    }
  }

  lemma {:induction false} EditCommentKeepsValid(
    s: Store, pathReportId: Id, commentId: Id, content: string, userId: Id)
    requires Valid(s)
    ensures Valid(EditComment(s, pathReportId, commentId, content, userId).store)
  {
    if Owns(s, commentId, userId) {
      SetContentKeepsValid(s.comments, s.nextCommentId, commentId, content);
    }
  }

  lemma {:induction false} DeleteCommentKeepsValid(s: Store, pathReportId: Id, commentId: Id, userId: Id)
    requires Valid(s)
    ensures Valid(DeleteComment(s, pathReportId, commentId, userId).store)
  {
  }

  // ---------------------------------------------------------------- accounts

  /** Under the store invariant at most one user has a given e-mail, so login returns
      exactly that user, with the default avatar when the picture is missing. */
  lemma {:induction false} LoginFindsTheUser(s: Store, u: User)
    requires Valid(s)
    requires u in s.users
    ensures Login(s, u.email, u.password) == Ok(WithAvatar(u))
  {
  }

  /** A successful registration can be followed by a login with the same
      credentials, which returns the new account. */
  lemma {:induction false} RegisterThenLogin(s: Store, body: RegisterBody)
    requires Valid(s)
    requires Register(s, body).response.Ok?
    ensures Login(Register(s, body).store, body.email, body.password) == Ok(WithAvatar(NewUser(s, body)))
  {
    RegisterKeepsValid(s, body);
    var t := Register(s, body).store;
    assert NewUser(s, body) in t.users;
    LoginFindsTheUser(t, NewUser(s, body));
  }

  /** The availability answer of the nickname check is the outcome of the nickname
      test in registration, when nothing is registered in between. */
  lemma {:induction false} NicknameCheckPredictsRegister(s: Store, body: RegisterBody)
    requires |body.nickname| >= MinNicknameLength
    ensures CheckNickname(s, Some(body.nickname)).available <==>
            Register(s, body).response != Err(NicknameInUse)
  {
    if !NicknameTaken(s, body.nickname) {
      assert Register(s, body).response.Ok? || Register(s, body).response == Err(EmailInUse);
    }
  }

  // ---------------------------------------------------------------- listing

  /** With a numeric `userId` the list is that user's reports and `filter` plays no part. */
  lemma {:induction false} ListByUserIgnoresFilter(
    s: Store, n: nat, f1: Option<string>, f2: Option<string>)
    ensures ListReports(s, ListQuery(NumericId(n), f1)) == ListReports(s, ListQuery(NumericId(n), f2))
    ensures forall r :: r in ReportsOf(ListReports(s, ListQuery(NumericId(n), f1))) <==>
              r in s.reports && r.userId.Some? && r.userId.value == n
  {
    var q1 := ListQuery(NumericId(n), f1);
    var q2 := ListQuery(NumericId(n), f2);
    Seqs.FilterSamePredicate(s.reports, (r: Report) => Selects(q1, r), (r: Report) => Selects(q2, r));
    assert Matching(s, q1) == Matching(s, q2);
  }

  /** Without a numeric user id, `anonymous` lists exactly the anonymous reports,
      `identified` exactly the others, and any other filter lists every report. */
  lemma {:induction false} ListByFilter(s: Store, u: UserIdParam, filter: Option<string>)
    requires !u.NumericId?
    ensures var rs := ReportsOf(ListReports(s, ListQuery(u, filter)));
            && (filter == Some("anonymous") ==>
                  forall r :: r in rs <==> r in s.reports && r.isAnonymous)
            && (filter == Some("identified") ==>
                  forall r :: r in rs <==> r in s.reports && !r.isAnonymous)
            && (filter != Some("anonymous") && filter != Some("identified") ==>
                  multiset(rs) == multiset(s.reports))
  {
    var q := ListQuery(u, filter);
    if filter != Some("anonymous") && filter != Some("identified") {
      Seqs.FilterAll(s.reports, (r: Report) => Selects(q, r));
    }
  }

  /** Listing never reveals who wrote an anonymous report. */
  lemma {:induction false} AnonymousReportsListedWithoutAuthor(s: Store, q: ListQuery)
    requires Valid(s)
    ensures forall row :: row in ListReports(s, q) && row.report.isAnonymous ==>
              row.userName.None? && row.report.userId.None?
  {
    var rows := ListReports(s, q);
    forall row | row in rows && row.report.isAnonymous
      ensures row.userName.None? && row.report.userId.None?
    {
      var i :| 0 <= i < |rows| && rows[i] == row;
      assert row.report == ReportsOf(rows)[i];
      assert row.report in ReportsOf(rows);
    }
  }

  // ---------------------------------------------------------------- likes

  /** Toggling twice restores the like set and gives opposite answers. */
  lemma {:induction false} ToggleLikeTwice(s: Store, reportId: Id, userId: Id)
    ensures var first := ToggleLike(s, reportId, userId);
            var second := ToggleLike(first.store, reportId, userId);
            && second.store == s
            && second.response.value == !first.response.value
  {
    var first := ToggleLike(s, reportId, userId);
    var second := ToggleLike(first.store, reportId, userId);
    assert second.store.likes == s.likes;
  }

  /** After a toggle the like check answers what the toggle answered. */
  lemma {:induction false} ToggleThenCheck(s: Store, reportId: Id, userId: Id)
    ensures LikeChecked(ToggleLike(s, reportId, userId).store, reportId, userId) ==
            ToggleLike(s, reportId, userId).response.value
  {
  }

  /** A toggle moves the report's like count by one in the direction it answers. */
  lemma {:induction false} ToggleLikeCount(s: Store, reportId: Id, userId: Id)
    ensures var out := ToggleLike(s, reportId, userId);
            LikeCount(out.store, reportId) ==
              (if out.response.value then LikeCount(s, reportId) + 1 else LikeCount(s, reportId) - 1)
  {
    var out := ToggleLike(s, reportId, userId);
    var pair := Like(reportId, userId);
    var before := Likers(s.likes, reportId);
    var after := Likers(out.store.likes, reportId);
    if out.response.value {
      assert after == before + {pair};
    } else {
      assert after == before - {pair};
    }
  }

  /** A toggle leaves the like count of every other report alone. */
  lemma {:induction false} ToggleLikeLeavesOthers(s: Store, reportId: Id, userId: Id, other: Id)
    requires other != reportId
    ensures LikeCount(ToggleLike(s, reportId, userId).store, other) == LikeCount(s, other)
  {
    assert Likers(ToggleLike(s, reportId, userId).store.likes, other) == Likers(s.likes, other);
  }

  // ---------------------------------------------------------------- comments

  /** An edit by the owner changes the content of the comments with that id and
      nothing else: every row keeps its position, id, report, author, parent and time. */
  lemma {:induction false} EditChangesOnlyContent(
    s: Store, pathReportId: Id, commentId: Id, content: string, userId: Id)
    requires Owns(s, commentId, userId)
    ensures var t := EditComment(s, pathReportId, commentId, content, userId).store;
            && t.users == s.users && t.reports == s.reports && t.likes == s.likes
            && |t.comments| == |s.comments|
            && forall i :: 0 <= i < |s.comments| ==>
                 && t.comments[i].(content := s.comments[i].content) == s.comments[i]
                 && (t.comments[i].content == if s.comments[i].id == commentId then content else s.comments[i].content)
  {
  }

  /** Deleting a comment leaves its replies stored: deletion does not cascade. */
  lemma {:induction false} DeleteKeepsReplies(s: Store, pathReportId: Id, commentId: Id, userId: Id)
    ensures var t := DeleteComment(s, pathReportId, commentId, userId).store;
            forall c :: c in s.comments && c.parentId == Some(commentId) && c.id != commentId ==>
              c in t.comments
  {
  }

  /** The report id of the path does not influence editing or deleting. */
  lemma {:induction false} CommentRoutesIgnorePath(
    s: Store, a: Id, b: Id, commentId: Id, content: string, userId: Id)
    ensures EditComment(s, a, commentId, content, userId) == EditComment(s, b, commentId, content, userId)
    ensures DeleteComment(s, a, commentId, userId) == DeleteComment(s, b, commentId, userId)
  {
  }
}

=== FILE: store.dfy ===
/** The server's relational store, abstracted: the `users`, `reports` and `comments`
    tables as rows in insertion order, the `likes` table as a set of
    (report, user) pairs, and the next value of each serial id column. */
module Store {
  import opened Common
  import Text

  datatype User = User(
    id: Id,
    name: string,
    email: string,
    password: string,
    phone: string,
    nickname: string,
    profilePic: Option<string>)

  datatype Report = Report(
    id: Id,
    userId: Option<Id>,
    title: string,
    description: string,
    location: Option<string>,
    isAnonymous: bool,
    photoUri: Option<string>,
    createdAt: int)

  datatype Comment = Comment(
    id: Id,
    reportId: Id,
    userId: Id,
    content: string,
    parentId: Option<Id>,
    createdAt: int)

  datatype Like = Like(reportId: Id, userId: Id)

  datatype Store = Store(
    users: seq<User>,
    reports: seq<Report>,
    likes: set<Like>,
    comments: seq<Comment>,
    nextUserId: Id,
    nextReportId: Id,
    nextCommentId: Id)

  /** `a ILIKE b` for a pattern without wildcards: equality up to letter case. */
  predicate SameNickname(a: string, b: string) {
    Text.ToLower(a) == Text.ToLower(b)
  }

  /** Some stored nickname matches `nickname` regardless of case. */
  predicate NicknameTaken(s: Store, nickname: string) {
    exists u :: u in s.users && SameNickname(u.nickname, nickname)
  }

  predicate EmailTaken(s: Store, email: string) {
    exists u :: u in s.users && u.email == email
  }

  /** Ids come from the serial counter and identify users; e-mails and nicknames
      (ignoring case) are unique. */
  predicate UsersValid(users: seq<User>, nextId: Id) {
    && (forall u :: u in users ==> u.id < nextId)
    && (forall u, v :: u in users && v in users && u.id == v.id ==> u == v)
    && (forall u, v :: u in users && v in users && u.email == v.email ==> u == v)
    && (forall u, v :: u in users && v in users && SameNickname(u.nickname, v.nickname) ==> u == v)
  }

  /** Ids come from the serial counter and identify reports; an anonymous report
      carries no author. */
  predicate ReportsValid(reports: seq<Report>, nextId: Id) {
    && (forall r :: r in reports ==> r.id < nextId)
    && (forall r, q :: r in reports && q in reports && r.id == q.id ==> r == q)
    && (forall r :: r in reports && r.isAnonymous ==> r.userId.None?)
  }

  /** Ids come from the serial counter and identify comments. */
  predicate CommentsValid(comments: seq<Comment>, nextId: Id) {
    && (forall c :: c in comments ==> c.id < nextId)
    && (forall c, d :: c in comments && d in comments && c.id == d.id ==> c == d)
  }

  /** The store as every route leaves it. */
  predicate Valid(s: Store) {
    && UsersValid(s.users, s.nextUserId)
    && ReportsValid(s.reports, s.nextReportId)
    && CommentsValid(s.comments, s.nextCommentId)
  }

  /** The database before anything is inserted. */
  const Empty := Store([], [], {}, [], 1, 1, 1)

  lemma EmptyIsValid()
    ensures Valid(Empty)
  {
  }
}

=== FILE: text.dfy ===
/** The string operations the screens rely on: `trim`, `toLowerCase`, `includes`,
    `split('.')` followed by taking the last piece, and `substring(0, n)`. */
module Text {

  /** The characters `String.prototype.trim` removes: the WhiteSpace and
      LineTerminator code points of ECMA-262. */
  predicate IsSpace(c: char) {
    || c == ' ' || c == '\t' || c == '\n' || c == '\r'
    || c == '\U{000B}' || c == '\U{000C}' || c == '\U{00A0}' || c == '\U{1680}'
    || ('\U{2000}' <= c <= '\U{200A}')
    || c == '\U{2028}' || c == '\U{2029}' || c == '\U{202F}' || c == '\U{205F}'
    || c == '\U{3000}' || c == '\U{FEFF}'
  }

  /** Every character is white space (the empty string included). */
  predicate Blank(s: string) {
    forall i :: 0 <= i < |s| ==> IsSpace(s[i])
  }

  /** `t` is `s` without its leading white space. */
  predicate StripsStart(s: string, t: string) {
    && |t| <= |s| && t == s[|s| - |t|..]
    && (forall i :: 0 <= i < |s| - |t| ==> IsSpace(s[i]))
    && (|t| > 0 ==> !IsSpace(t[0]))
  }

  /** `r` is `t` without its trailing white space. */
  predicate StripsEnd(t: string, r: string) {
    && |r| <= |t| && r == t[..|r|]
    && (forall i :: |r| <= i < |t| ==> IsSpace(t[i]))
    && (|r| > 0 ==> !IsSpace(r[|r| - 1]))
  }

  function TrimStart(s: string): (r: string)
    ensures StripsStart(s, r)
    decreases |s|
  {
    if |s| > 0 && IsSpace(s[0]) then TrimStart(s[1..]) else s
  }

  function TrimEnd(s: string): (r: string)
    ensures StripsEnd(s, r)
    decreases |s|
  {
    if |s| > 0 && IsSpace(s[|s| - 1]) then TrimEnd(s[..|s| - 1]) else s
  }

  /** `s.trim()`: the slice of `s` left after removing the white space at both ends. */
  function Trim(s: string): (r: string)
    ensures exists i :: 0 <= i <= |s| - |r| && r == s[i..i + |r|] && Blank(s[..i]) && Blank(s[i + |r|..])
    ensures r == [] <==> Blank(s)
    ensures |r| > 0 ==> !IsSpace(r[0]) && !IsSpace(r[|r| - 1])
    ensures |r| <= |s|
  {
    var t := TrimStart(s);
    var r := TrimEnd(t);
    StrippedIsOuterSlice(s, t, r);
    StrippedEnds(s, t, r);
    r
  }

  /** Stripping both ends keeps a slice of `s` with only white space around it. */
  lemma StrippedIsOuterSlice(s: string, t: string, r: string)
    requires StripsStart(s, t) && StripsEnd(t, r)
    ensures exists i :: 0 <= i <= |s| - |r| && r == s[i..i + |r|] && Blank(s[..i]) && Blank(s[i + |r|..])
  {
    var i := |s| - |t|;
    SliceOfSlice(s, t, r);
    BlankPrefix(s, i);
    BlankAfter(s, t, i, |r|);
    assert r == s[i..i + |r|] && Blank(s[..i]) && Blank(s[i + |r|..]);
  }

  /** Stripping both ends leaves nothing exactly for a blank `s`, and otherwise
      something that neither starts nor ends with white space. */
  lemma StrippedEnds(s: string, t: string, r: string)
    requires StripsStart(s, t) && StripsEnd(t, r)
    ensures r == [] <==> Blank(s)
    ensures |r| > 0 ==> !IsSpace(r[0]) && !IsSpace(r[|r| - 1])
    ensures |r| <= |s|
  {
    if r == [] {
      StrippedAwayIsBlank(s, t);
    } else {
      StrippedKeepsEnds(s, t, r);
    }
  }

  /** A prefix `r` of the suffix `t` of `s` is a slice of `s`. */
  lemma SliceOfSlice<T>(s: seq<T>, t: seq<T>, r: seq<T>)
    requires |t| <= |s| && t == s[|s| - |t|..]
    requires |r| <= |t| && r == t[..|r|]
    ensures r == s[|s| - |t|..|s| - |t| + |r|]
  {
  }

  /** White space up to position `i` makes `s[..i]` blank. */
  lemma BlankPrefix(s: string, i: nat)
    requires i <= |s| && forall k :: 0 <= k < i ==> IsSpace(s[k])
    ensures Blank(s[..i])
  {
    var u := s[..i];
    forall k | 0 <= k < |u| ensures IsSpace(u[k]) {
      assert u[k] == s[k];
    }
  }

  /** With `t` the suffix of `s` from `i`, white space in `t` from position `n` on
      makes `s[i + n..]` blank. */
  lemma BlankAfter(s: string, t: string, i: nat, n: nat)
    requires i + n <= |s| && t == s[i..]
    requires forall m :: n <= m < |t| ==> IsSpace(t[m])
    ensures Blank(s[i + n..])
  {
    var u := s[i + n..];
    forall k | 0 <= k < |u| ensures IsSpace(u[k]) {
      assert u[k] == t[n + k];
    }
  }

  /** When stripping the end of the stripped start leaves nothing, `s` is blank. */
  lemma StrippedAwayIsBlank(s: string, t: string)
    requires StripsStart(s, t) && StripsEnd(t, [])
    ensures Blank(s)
  {
  }

  /** What is kept neither starts nor ends with white space, and its last character
      shows that `s` is not blank. */
  lemma StrippedKeepsEnds(s: string, t: string, r: string)
    requires StripsStart(s, t) && StripsEnd(t, r) && r != []
    ensures !IsSpace(r[0]) && !IsSpace(r[|r| - 1]) && !Blank(s)
  {
    var j := |s| - |t| + |r| - 1;
    SliceEnds(s, t, r);
    assert !IsSpace(s[j]);
  }

  /** The ends of a prefix `r` of a suffix `t` of `s`, as positions of `s`. */
  lemma SliceEnds<T>(s: seq<T>, t: seq<T>, r: seq<T>)
    requires |t| <= |s| && t == s[|s| - |t|..]
    requires 0 < |r| <= |t| && r == t[..|r|]
    ensures r[0] == t[0] && r[|r| - 1] == s[|s| - |t| + |r| - 1]
  {
  }

  /** A trimmed string has nothing left to trim. */
  lemma {:induction false} TrimIdempotent(s: string)
    ensures Trim(Trim(s)) == Trim(s)
  {
    var r := Trim(s);
    assert TrimStart(r) == r;
    assert TrimEnd(r) == r;
  }

  /** ASCII upper-case letters map to lower case; every other character is kept. */
  function LowerChar(c: char): char {
    if 'A' <= c <= 'Z' then (c as int + 32) as char else c
  }

  /** `s.toLowerCase()`, restricted to ASCII letters. */
  function ToLower(s: string): (r: string)
    ensures |r| == |s|
    ensures forall i :: 0 <= i < |s| ==> r[i] == LowerChar(s[i])
  {
    seq(|s|, i requires 0 <= i < |s| => LowerChar(s[i]))
  }

  /** Lower-casing twice changes nothing further. */
  lemma ToLowerIdempotent(s: string)
    ensures ToLower(ToLower(s)) == ToLower(s)
  {
  }

  /** `hay.includes(needle)`, by scanning start positions. */
  predicate Contains(hay: string, needle: string)
    decreases |hay|
  {
    needle <= hay || (|hay| > 0 && Contains(hay[1..], needle))
  }

  /** `needle` occurs in `hay` starting at offset `i`. */
  predicate OccursAt(hay: string, needle: string, i: int) {
    0 <= i <= |hay| - |needle| && hay[i..i + |needle|] == needle
  }

  /** `Contains` agrees with the reference definition: the needle occurs at some offset. */
  lemma {:induction false} ContainsIffOccurs(hay: string, needle: string)
    ensures Contains(hay, needle) <==>
            exists i :: OccursAt(hay, needle, i)
    decreases |hay|
  {
    if needle <= hay {
      assert OccursAt(hay, needle, 0);
    } else if |hay| == 0 {
    } else {
      ContainsIffOccurs(hay[1..], needle);
      if exists i :: OccursAt(hay, needle, i) {
        var i :| OccursAt(hay, needle, i);
        assert hay[1..][i - 1..i - 1 + |needle|] == hay[i..i + |needle|];
        assert OccursAt(hay[1..], needle, i - 1);
      }
      if Contains(hay[1..], needle) {
        var j :| OccursAt(hay[1..], needle, j);
        assert hay[j + 1..j + 1 + |needle|] == hay[1..][j..j + |needle|];
        assert OccursAt(hay, needle, j + 1);
      }
    }
  }

  /** The empty needle occurs in every string. */
  lemma ContainsEmpty(hay: string)
    ensures Contains(hay, "")
  {
  }

  /** The text after the last occurrence of `sep`, or all of `s` when `sep` does not
      occur: the last element of `s.split(sep)`. */
  function LastSegment(s: string, sep: char): (r: string)
    ensures |r| <= |s| && r == s[|s| - |r|..]
    ensures sep !in r
    ensures |r| == |s| || s[|s| - |r| - 1] == sep
    decreases |s|
  {
    if |s| == 0 || s[|s| - 1] == sep then []
    else LastSegment(s[..|s| - 1], sep) + [s[|s| - 1]]
  }

  /** Appending a separator and an extension that does not contain it, then taking
      the last segment, gives the extension back. */
  lemma {:induction false} LastSegmentOfAppend(stem: string, sep: char, ext: string)
    requires sep !in ext
    ensures LastSegment(stem + [sep] + ext, sep) == ext
  {
    var s := stem + [sep] + ext;
    var r := LastSegment(s, sep);
    assert s[|s| - |ext| - 1] == sep;
    assert s[|s| - |ext|..] == ext;
    assert forall k :: 0 <= k < |r| ==> r[k] == s[|s| - |r| + k];
    assert |r| == |ext|;
  }

  /** `s.substring(0, n)`. */
  function Prefix(s: string, n: nat): (r: string)
    ensures r <= s
    ensures |r| == if |s| < n then |s| else n
  {
    if |s| < n then s else s[..n]
  }
}

=== FILE: thread.dfy ===
/** The report detail screen: the comment thread it renders from the flat comment
    list, the like button's bookkeeping and the comment box. */
module Thread {
  import opened Common
  import opened Store
  import opened Server
  import Text
  import Seqs
  import ServerProps

  // ---------------------------------------------------------------- the thread

  /** The top-level list: the comments without a parent, in list order. */
  function Roots(cs: seq<CommentView>): (r: seq<CommentView>)
    ensures forall c {:trigger c in r} :: c in r <==> c in cs && c.comment.parentId.None?
    ensures forall c {:trigger multiset(r)[c]} :: multiset(r)[c] == if c.comment.parentId.None? then multiset(cs)[c] else 0
    ensures Seqs.IsSubsequence(r, cs)
  {
    var top := (c: CommentView) => c.comment.parentId.None?;
    Seqs.FilterCount(cs, top);
    Seqs.Filter(cs, top)
  }

  /** The comments rendered directly under the comment with id `id`, in list order. */
  function Replies(cs: seq<CommentView>, id: Id): (r: seq<CommentView>)
    ensures forall c {:trigger c in r} :: c in r <==> c in cs && c.comment.parentId == Some(id)
    ensures forall c {:trigger multiset(r)[c]} :: multiset(r)[c] == if c.comment.parentId == Some(id) then multiset(cs)[c] else 0
    ensures Seqs.IsSubsequence(r, cs)
  {
    var under := (c: CommentView) => c.comment.parentId == Some(id);
    Seqs.FilterCount(cs, under);
    Seqs.Filter(cs, under)
  }

  /** The comments rendered for `items` and, nested under each, its replies, in
      pre-order. `depth` bounds the nesting the render goes through. */
  function Render(cs: seq<CommentView>, items: seq<CommentView>, depth: nat): seq<CommentView>
    decreases depth, |items|
  {
    if depth == 0 || |items| == 0 then []
    else [items[0]] + Render(cs, Replies(cs, items[0].comment.id), depth - 1) + Render(cs, items[1..], depth)
  }

  /** Everything the screen renders. */
  function Shown(cs: seq<CommentView>, depth: nat): seq<CommentView> {
    Render(cs, Roots(cs), depth)
  }

  /** `x` is `top` or is rendered below it, at most `depth - 1` levels down. */
  predicate InSubtree(cs: seq<CommentView>, x: CommentView, top: CommentView, depth: nat)
    decreases depth
  {
    depth > 0 &&
    (x == top ||
     exists r :: r in cs && r.comment.parentId == Some(top.comment.id) && InSubtree(cs, x, r, depth - 1))
  }

  /** Following `x`'s parent links through the list reaches a comment without a
      parent, in fewer than `depth` steps. */
  predicate Reaches(cs: seq<CommentView>, x: CommentView, depth: nat)
    decreases depth
  {
    depth > 0 &&
    (x.comment.parentId.None? ||
     exists p :: p in cs && x.comment.parentId == Some(p.comment.id) && Reaches(cs, p, depth - 1))
  }

  /** One level of the render: the first item, the render of its replies, the
      render of the other items. */
  lemma RenderCons(cs: seq<CommentView>, items: seq<CommentView>, depth: nat)
    ensures Render(cs, items, depth) != [] <==> depth > 0 && |items| > 0
    ensures depth > 0 && |items| > 0 ==>
              Render(cs, items, depth) ==
              [items[0]] + Render(cs, Replies(cs, items[0].comment.id), depth - 1) + Render(cs, items[1..], depth)
  {
  }

  /** Something rendered for `items` is the first of them, is rendered among its
      replies, or is rendered for the others. */
  lemma RenderCases(cs: seq<CommentView>, items: seq<CommentView>, depth: nat, x: CommentView)
    requires x in Render(cs, items, depth)
    ensures depth > 0 && |items| > 0
    ensures || x == items[0]
            || x in Render(cs, Replies(cs, items[0].comment.id), depth - 1)
            || x in Render(cs, items[1..], depth)
  {
    RenderCons(cs, items, depth);
  }

  /** The subtree of a reply lies in the subtree of the comment it answers. */
  lemma SubtreeOfReply(cs: seq<CommentView>, x: CommentView, r: CommentView, top: CommentView, depth: nat)
    requires depth > 0 && r in cs && r.comment.parentId == Some(top.comment.id)
    requires InSubtree(cs, x, r, depth - 1)
    ensures InSubtree(cs, x, top, depth)
  {
  }

  /** Everything rendered for `items` lies in the subtree of one of them, `t`. */
  lemma {:induction false} RenderSound(cs: seq<CommentView>, items: seq<CommentView>, depth: nat, x: CommentView)
    returns (t: CommentView)
    requires x in Render(cs, items, depth)
    ensures t in items && InSubtree(cs, x, t, depth)
    decreases depth, |items|, 1
  {
    RenderCases(cs, items, depth, x);
    if x == items[0] {
      t := x;
    } else if x in Render(cs, Replies(cs, items[0].comment.id), depth - 1) {
      RenderSoundBelow(cs, items[0], Replies(cs, items[0].comment.id), depth - 1, x);
      t := items[0];
    } else {
      t := RenderSoundInRest(cs, items, depth, x);
    }
  }

  /** What is rendered among replies to `top`, `d` levels deep, lies in the subtree
      of `top`. */
  lemma {:induction false} RenderSoundBelow(
    cs: seq<CommentView>, top: CommentView, replies: seq<CommentView>, d: nat, x: CommentView)
    requires replies == Replies(cs, top.comment.id)
    requires x in Render(cs, replies, d)
    ensures InSubtree(cs, x, top, d + 1)
    decreases d + 1, 0, 0
  {
    var r := RenderSound(cs, replies, d, x);
    assert r in cs && r.comment.parentId == Some(top.comment.id);
    SubtreeOfReply(cs, x, r, top, d + 1);
  }

  /** What is rendered for the items after the first lies in the subtree of one of them. */
  lemma {:induction false} RenderSoundInRest(cs: seq<CommentView>, items: seq<CommentView>, depth: nat, x: CommentView)
    returns (t: CommentView)
    requires |items| > 0 && x in Render(cs, items[1..], depth)
    ensures t in items && InSubtree(cs, x, t, depth)
    decreases depth, |items|, 0
  {
    t := RenderSound(cs, items[1..], depth, x);
    var i :| 0 <= i < |items[1..]| && items[1..][i] == t;
    assert items[i + 1] == t;
  }

  /** Below a comment other than itself, its subtree continues in one of its replies. */
  lemma {:induction false} SubtreeStep(cs: seq<CommentView>, x: CommentView, t: CommentView, depth: nat)
    requires InSubtree(cs, x, t, depth) && x != t
    ensures depth > 0
    ensures exists r :: r in Replies(cs, t.comment.id) && InSubtree(cs, x, r, depth - 1)
  {
    var r :| r in cs && r.comment.parentId == Some(t.comment.id) && InSubtree(cs, x, r, depth - 1);
    assert r in Replies(cs, t.comment.id);
  }

  /** Everything in the subtree of one of `items` is rendered for them. */
  lemma {:induction false} RenderComplete(
    cs: seq<CommentView>, items: seq<CommentView>, depth: nat, x: CommentView, t: CommentView)
    requires t in items && InSubtree(cs, x, t, depth)
    ensures x in Render(cs, items, depth)
    decreases depth, |items|
  {
    assert depth > 0 && |items| > 0;
    RenderCons(cs, items, depth);
    var t0 := items[0];
    var replies := Replies(cs, t0.comment.id);
    var rest := items[1..];
    if t == t0 {
      if x != t0 {
        SubtreeStep(cs, x, t0, depth);
        var r :| r in replies && InSubtree(cs, x, r, depth - 1);
        RenderComplete(cs, replies, depth - 1, x, r);
      }
    } else {
      assert t in rest by {
        assert items == [t0] + rest;
      }
      RenderComplete(cs, rest, depth, x, t);
    }
  }

  /** The render of `items` is exactly the union of their subtrees. */
  lemma {:induction false} RenderMembers(cs: seq<CommentView>, items: seq<CommentView>, depth: nat, x: CommentView)
    ensures x in Render(cs, items, depth) <==> exists t :: t in items && InSubtree(cs, x, t, depth)
  {
    if x in Render(cs, items, depth) {
      var t := RenderSound(cs, items, depth, x);
    }
    if exists t :: t in items && InSubtree(cs, x, t, depth) {
      var t :| t in items && InSubtree(cs, x, t, depth);
      RenderComplete(cs, items, depth, x, t);
    }
  }

  /** A larger depth budget never loses a chain. */
  lemma {:induction false} ReachesMonotone(cs: seq<CommentView>, x: CommentView, n: nat, m: nat)
    requires Reaches(cs, x, n) && n <= m
    ensures Reaches(cs, x, m)
    decreases n
  {
    if x.comment.parentId.Some? {
      var p :| p in cs && x.comment.parentId == Some(p.comment.id) && Reaches(cs, p, n - 1);
      ReachesMonotone(cs, p, n - 1, m - 1);
    }
  }

  /** Everything below a stored comment is stored, and its chain runs through that
      comment. */
  lemma {:induction false} SubtreeReaches(cs: seq<CommentView>, x: CommentView, t: CommentView, k: nat, j: nat)
    requires InSubtree(cs, x, t, k) && t in cs && Reaches(cs, t, j)
    ensures x in cs && Reaches(cs, x, j + k - 1)
    decreases k
  {
    if x == t {
      ReachesMonotone(cs, t, j, j + k - 1);
    } else {
      var r :| r in cs && r.comment.parentId == Some(t.comment.id) && InSubtree(cs, x, r, k - 1);
      assert Reaches(cs, r, j + 1);
      SubtreeReaches(cs, x, r, k - 1, j + 1);
    }
  }

  /** A reply to a comment in `t`'s subtree is in that subtree, one level further down. */
  lemma {:induction false} SubtreeExtend(cs: seq<CommentView>, x: CommentView, p: CommentView, t: CommentView, m: nat)
    requires InSubtree(cs, p, t, m) && x in cs && x.comment.parentId == Some(p.comment.id)
    ensures InSubtree(cs, x, t, m + 1)
    decreases m
  {
    if p == t {
      assert InSubtree(cs, x, x, m);
    } else {
      var r :| r in cs && r.comment.parentId == Some(t.comment.id) && InSubtree(cs, p, r, m - 1);
      SubtreeExtend(cs, x, p, r, m - 1);
    }
  }

  /** A stored comment whose chain reaches a root lies in that root's subtree. */
  lemma {:induction false} ReachedHasRoot(cs: seq<CommentView>, x: CommentView, n: nat)
    requires x in cs && Reaches(cs, x, n)
    ensures exists t :: t in cs && t.comment.parentId.None? && InSubtree(cs, x, t, n)
    decreases n
  {
    if x.comment.parentId.None? {
      assert InSubtree(cs, x, x, n);
    } else {
      var p :| p in cs && x.comment.parentId == Some(p.comment.id) && Reaches(cs, p, n - 1);
      ReachedHasRoot(cs, p, n - 1);
      var t :| t in cs && t.comment.parentId.None? && InSubtree(cs, p, t, n - 1);
      SubtreeExtend(cs, x, p, t, n - 1);
    }
  }

  /** A comment is rendered exactly when it is in the list and its parent chain
      reaches a top-level comment within the depth budget. */
  lemma {:induction false} ShownIffReachesRoot(cs: seq<CommentView>, x: CommentView, depth: nat)
    ensures x in Shown(cs, depth) <==> x in cs && Reaches(cs, x, depth)
  {
    RenderMembers(cs, Roots(cs), depth, x);
    if x in Shown(cs, depth) {
      var t :| t in Roots(cs) && InSubtree(cs, x, t, depth);
      assert Reaches(cs, t, 1);
      SubtreeReaches(cs, x, t, depth, 1);
    }
    if x in cs && Reaches(cs, x, depth) {
      ReachedHasRoot(cs, x, depth);
      var t :| t in cs && t.comment.parentId.None? && InSubtree(cs, x, t, depth);
      assert t in Roots(cs);
    }
  }

  /** A reply whose parent is not in the list (deleted, say) is never rendered,
      however deep the render goes. */
  lemma {:induction false} OrphanNeverShown(cs: seq<CommentView>, x: CommentView, depth: nat)
    requires x.comment.parentId.Some?
    requires forall c :: c in cs ==> x.comment.parentId != Some(c.comment.id)
    ensures x !in Shown(cs, depth)
  {
    ShownIffReachesRoot(cs, x, depth);
  }

  /** Adding comments never breaks a chain. */
  lemma {:induction false} ReachesInLargerList(cs: seq<CommentView>, more: seq<CommentView>, x: CommentView, n: nat)
    requires Reaches(cs, x, n)
    requires forall c :: c in cs ==> c in more
    ensures Reaches(more, x, n)
    decreases n
  {
    if x.comment.parentId.Some? {
      var p :| p in cs && x.comment.parentId == Some(p.comment.id) && Reaches(cs, p, n - 1);
      ReachesInLargerList(cs, more, p, n - 1);
    }
  }

  /** A new reply to a rendered comment, put in front of the list, is rendered one
      level below it; everything rendered before stays rendered. */
  lemma {:induction false} ReplyToShownIsShown(cs: seq<CommentView>, p: CommentView, c: CommentView, depth: nat)
    requires p in Shown(cs, depth)
    requires c.comment.parentId == Some(p.comment.id)
    ensures c in Shown([c] + cs, depth + 1)
    ensures forall x :: x in Shown(cs, depth) ==> x in Shown([c] + cs, depth + 1)
  {
    var more := [c] + cs;
    ShownIffReachesRoot(cs, p, depth);
    ReachesInLargerList(cs, more, p, depth);
    assert Reaches(more, c, depth + 1);
    ShownIffReachesRoot(more, c, depth + 1);
    forall x | x in Shown(cs, depth) ensures x in Shown(more, depth + 1) {
      ShownIffReachesRoot(cs, x, depth);
      ReachesInLargerList(cs, more, x, depth);
      ReachesMonotone(more, x, depth, depth + 1);
      ShownIffReachesRoot(more, x, depth + 1);
    }
  }

  /** The count in the section title. */
  function HeaderCount(cs: seq<CommentView>): nat {
    |cs|
  }

  /** The count in the section title includes the replies: it is the length of the
      top-level list plus the number of replies. */
  lemma {:induction false} HeaderCountsReplies(cs: seq<CommentView>)
    ensures HeaderCount(cs) ==
            |Roots(cs)| + |Seqs.Filter(cs, (c: CommentView) => c.comment.parentId.Some?)|
  {
    Seqs.FilterPartition(cs, (c: CommentView) => c.comment.parentId.None?,
                         (c: CommentView) => c.comment.parentId.Some?);
  }

  // ---------------------------------------------------------------- likes

  /** The heart and the count next to it. */
  datatype LikeState = LikeState(liked: bool, count: int)

  /** What the screen shows after loading: the like check and the like count. */
  function Loaded(s: Store, reportId: Id, userId: Id): LikeState {
    LikeState(LikeChecked(s, reportId, userId), LikeCount(s, reportId))
  }

  /** `handleLike`: with the toggle's answer the heart takes that answer and the
      count moves by one in its direction; a failed call changes nothing. */
  function HandleLike(st: LikeState, answer: Option<bool>): (r: LikeState)
    ensures answer.None? ==> r == st
    ensures answer.Some? ==> r.liked == answer.value
    ensures answer.Some? ==> (r.count > st.count <==> answer.value)
    ensures answer.Some? ==> r.count == st.count + 1 || r.count == st.count - 1
  {
    match answer
    case None => st
    case Some(liked) => LikeState(liked, if liked then st.count + 1 else st.count - 1)
  }

  /** Starting from what was loaded, the local bookkeeping after a toggle agrees with
      what the server would answer to a fresh check and count. */
  lemma {:induction false} LikeBookkeepingTracksServer(s: Store, reportId: Id, userId: Id)
    ensures var out := ToggleLike(s, reportId, userId);
            HandleLike(Loaded(s, reportId, userId), Some(out.response.value)) ==
            Loaded(out.store, reportId, userId)
  {
    ServerProps.ToggleThenCheck(s, reportId, userId);
    ServerProps.ToggleLikeCount(s, reportId, userId);
  }

  // ---------------------------------------------------------------- the comment box

  /** The comments, the text in the box and the comment being answered. */
  datatype DetailState = DetailState(
    comments: seq<CommentView>,
    draft: string,
    replyingTo: Option<CommentView>)

  /** What `addComment` is called with. */
  datatype CommentRequest = CommentRequest(content: string, parentId: Option<nat>)

  datatype AddOutcome = AddOutcome(call: Option<CommentRequest>, state: DetailState)

  /** `handleAddComment`, given the service's reply (`None` when the call fails). */
  function HandleAddComment(st: DetailState, reply: Option<CommentView>): (out: AddOutcome)
    ensures out.call.None? <==> Text.Blank(st.draft)
    ensures out.call.None? ==> out.state == st
    ensures out.call.Some? ==> out.call.value.content == st.draft
    ensures out.call.Some? ==>
              (out.call.value.parentId.Some? <==> st.replyingTo.Some?) &&
              (st.replyingTo.Some? ==> out.call.value.parentId == Some(st.replyingTo.value.comment.id as nat))
    ensures out.call.Some? && reply.None? ==> out.state == st
    ensures out.call.Some? && reply.Some? ==>
              out.state.comments == [reply.value] + st.comments &&
              out.state.draft == "" && out.state.replyingTo.None?
  {
    if Text.Trim(st.draft) == [] then AddOutcome(None, st)
    else
      var parent := if st.replyingTo.Some? then Some(st.replyingTo.value.comment.id as nat) else None;
      var call := CommentRequest(st.draft, parent);
      match reply
      case None => AddOutcome(Some(call), st)
      case Some(c) => AddOutcome(Some(call), DetailState([c] + st.comments, "", None))
  }

  /** Sent to the server, a reply is stored under the comment being answered, with the
      text exactly as typed; a successful reply then heads the local list and the
      header count grows by one. */
  lemma {:induction false} ReplyStoredUnderItsParent(
    s: Store, reportId: Id, userId: Id, now: int, st: DetailState)
    requires !Text.Blank(st.draft)
    requires st.replyingTo.Some?
    ensures var call := HandleAddComment(st, None).call.value;
            var out := AddComment(s, reportId, CommentBody(userId, call.content, call.parentId), now);
            var stored := out.store.comments[|out.store.comments| - 1];
            && stored.parentId == Some(st.replyingTo.value.comment.id)
            && stored.content == st.draft
            && (out.response.Ok? ==>
                  var next := HandleAddComment(st, Some(out.response.value)).state;
                  next.comments[0].comment == stored &&
                  HeaderCount(next.comments) == HeaderCount(st.comments) + 1)
  {
  }
}
